=== FILE: README.md ===
# PyDisplay_cmods bus modules in Dafny

This project models the native MicroPython modules of PyDisplay_cmods that drive LCD
panels through the ESP-IDF LCD panel-IO driver, and proves properties of that model.
It covers:

- the in-place 16-bit byte swap, in its checked form (`byteswap.byteswap`) and its
  unchecked form (`swap_bytes`);
- the colour-transfer handshake between `send_color` and the driver's completion
  interrupt `color_trans_done`, in each revision:
  - fire and forget on a module-level flag (`src/common.c`, `src/bus.c`,
    `src/pydevices.c`);
  - set, issue, then wait (`src/busdrivers/common.c`);
  - wait, issue, wait again, with status checks (`src/buses/common/common.c`);
- the argument handling of `send` and `register_callback`;
- the bus constructors:
  - the SPI mode bits and configuration records;
  - the i80 data-pin validation and slot fills;
  - the blue/green/red pin packing, frame-buffer geometry, attributes and buffer export
    of the RGB frame buffer.

How the model is built:

- One Dafny module per C file. `MicroPython` holds the interpreter objects, exceptions and
  conversions the modules call. `EspLcd` holds the driver's configuration records and calls.
- The driver is not modelled. Every call into it is recorded: panel-IO transfers go to a
  `calls` log of the bus object, other calls to a `vendor` list returned by the
  constructor. The status each driver call returns is an input of the method, including
  the status of `esp_lcd_panel_io_tx_color`, which several revisions discard.
- The driver delivers a completion only for a colour transfer it accepted (status
  `ESP_OK`). The model records which transfer it holds:
  - in the fire-and-forget revisions, the `holder` field of the shared flag names the bus
    whose accepted transfer is outstanding;
  - in the per-instance revisions, the field `inFlight` of the bus says that one is.
  These fields are driver state, not C variables.
- The completion interrupt is an explicit event method (`ColorTransDone`). It can be called
  only for the transfer the driver holds.
- A busy-wait is a loop that polls the flag. An input `polls` says after how many polls
  the completion of the held transfer arrives. If the flag is still set after `polls + 1`
  polls, no completion is coming, so the wait spins forever. The call's outcome is then
  `Hung` rather than `Done` or `Raised`.
- The module-level `color_trans_active` flag is a `ColorTransFlag.Flag` object shared by
  every bus of its file. The completion that ends a wait goes to `owner`, which must be the
  flag's holder: the bus the panel IO was created with as `user_ctx` (src/spibus.c:121,
  src/i80bus.c:178). Each constructor's panel-IO configuration records that binding
  (`onColorTransDone` and `userCtx`).

Neither RGB revision checks the lengths of the pin groups, and `refresh` draws to
`(width + 1, height + 1)`; see Findings.

`src/rgbframebuffer/esp32/rgbframebuffer.c` repeats the modelled parts of
`src/rgbframebuffer.c` line for line, so the same members model it:

- pin packing: esp32 lines 143-161, src/rgbframebuffer.c lines 163-181;
- the pclk edge: esp32 line 116, src/rgbframebuffer.c line 136;
- width and height: esp32 lines 95-96, src/rgbframebuffer.c lines 116-117;
- refresh: esp32 lines 32-40, src/rgbframebuffer.c lines 72-80;
- buffer export: esp32 lines 43-48, src/rgbframebuffer.c lines 208-213;
- attributes: esp32 lines 50-60, src/rgbframebuffer.c lines 215-225.

## Model

| member | source | states |
|---|---|---|
| ByteSwap.ByteSwap | src/byteswap/byteswap.c:20-40 | an odd length raises ValueError with the buffer untouched; otherwise the buffer becomes SwapPairs of its old contents |
| ByteSwap.SwapPairs | src/byteswap/byteswap.c:32-37 | the swap keeps the buffer length |
| ByteSwap.SwapPairsAt | src/byteswap/byteswap.c:35-37 | byte k of the result is the old byte of its pair partner (2i and 2i+1 exchanged, a trailing odd byte stays) |
| ByteSwap.SwapPairsInvolutive | src/byteswap/byteswap.c:35-37 | swapping twice restores the buffer |
| ByteSwap.SwapPairsKeepsTrailingByte | src/common.c:164-167 | an odd trailing byte is left as it was |
| ByteSwap.SwapPairsExample | src/byteswap/byteswap.c:31-37 | 12 34 56 78 becomes 34 12 78 56 |
| ByteSwap.RotateIsByteExchange | src/byteswap/byteswap.c:36 | `(x >> 8) \| (x << 8)` truncated to 16 bits exchanges the two bytes of the element |
| ByteSwap.BytesOfWord | src/byteswap/byteswap.c:31 | the little-endian element built from two bytes stores those bytes back |
| ByteSwap.RotateExchangesBytes | src/byteswap/byteswap.c:36 | storing the rotated element writes the high byte first and the low byte second |
| ByteSwap.SwapPairsRotatesElements | src/byteswap/byteswap.c:35-37 | element i of the result is the rotation of element i of the input alone |
| Common.Fired | src/common.c:95-97 | the completion runs the registered callback exactly when it is callable |
| Common.Request | src/common.c:105-117 | a None command becomes -1 and None data a NULL buffer of length 0; a bad command or data raises TypeError |
| Common.Bus.ColorTransDone | src/common.c:93-100 | delivered only to the bus whose accepted transfer the driver holds; runs the callback only if callable, clears the shared flag, returns false |
| Common.Bus.Send | src/common.c:102-121 | exactly one tx_param transfer with the normalised command and data, status ignored; nothing sent on a TypeError |
| Common.Bus.SendColor | src/common.c:123-147 | waits until the flag is clear (consuming the outstanding completion of its holder), then sets it and issues exactly one tx_color whose status is discarded; a refused transfer leaves the flag stranded; with a stranded flag the call is Hung and issues nothing |
| Common.RefusedColorTransferStalls | src/common.c:140-144 | after one refused tx_color, the next send_color on any bus of the file is Hung for every poll budget |
| Common.Bus.RegisterCallback | src/common.c:149-157 | a non-callable non-None value raises ValueError and leaves the slot unchanged; otherwise it is stored |
| Common.SwapBytes | src/common.c:159-170 | the buffer becomes SwapPairs of its old contents whatever its length, without raising |
| ColorTransFlag.Flag.constructor | src/bus.c:49 | the module-level flag starts clear, with no transfer held by the driver |
| ColorTransFlag.Flag.Issue | src/bus.c:91-93 | the flag is set whatever the status; the driver holds the transfer only when it accepted it, so the flag is stranded exactly when the transfer was refused |
| ColorTransFlag.Flag.IssueChecked | src/bus.c:91-93 | corrected issue: the flag is set exactly when the transfer was accepted and is never stranded |
| BusesCommon.Request | src/buses/common/common.c:28-36 | the command is always converted; None data is a NULL buffer of length 0 |
| BusesCommon.RequestAgreesWithCommon | src/buses/common/common.c:28 | agrees with the fire-and-forget normalisation except on a None command, which raises here |
| BusesCommon.Bus.constructor | src/buses/esp32/i80bus.c:72-76 | a new bus has trans_done set, nothing in flight, and the driver's tx_param/tx_color in its slots |
| BusesCommon.Bus.ColorTransDone | src/buses/common/common.c:20-24 | sets trans_done and returns false |
| BusesCommon.Bus.Send | src/buses/common/common.c:26-43 | one tx_param transfer; a nonzero status raises OSError("Failed to send data") after it |
| BusesCommon.Bus.WaitDone | src/buses/common/common.c:57-59 | the wait ends, with trans_done set and nothing in flight, exactly when trans_done was set or a transfer was in flight |
| BusesCommon.Bus.SendColor | src/buses/common/common.c:45-70 | waits, clears trans_done, issues one tx_color; a refusal raises OSError with trans_done clear, success waits until it is set again; with trans_done clear and nothing in flight the call is Hung |
| BusesCommon.Bus.SendColorRestoring | src/buses/common/common.c:60-64 | corrected send_color: a refused transfer leaves trans_done set |
| BusesCommon.RefusedColorTransferStalls | src/buses/common/common.c:60-66 | after one refused transfer trans_done stays clear and the next send_color is Hung for every poll budget |
| BusesCommon.RefusedColorTransferRecovers | src/buses/common/common.c:60-63 | with the correction the next send_color completes |
| BusDriversCommon.Bus.constructor | src/busdrivers/spibus.c:95-99 | a new bus has trans_done set and the driver's tx_param/tx_color in its slots |
| BusDriversCommon.Bus.ColorTransDone | src/busdrivers/common.c:35-39 | sets trans_done and returns false |
| BusDriversCommon.Bus.Send | src/busdrivers/common.c:41-56 | exactly one transfer through the tx_param slot, no status check |
| BusDriversCommon.Bus.SendColor | src/busdrivers/common.c:58-77 | clears trans_done and issues one tx_color through the slot; an accepted transfer returns once trans_done is set again, a refused one is Hung with trans_done clear |
| BusDriversCommon.RefusedColorTransferHangs | src/busdrivers/common.c:70-74 | a refused tx_color makes send_color Hung for every poll budget, with trans_done clear |
| BusUnion.IoHandle | src/bus.c:63 | the spi variant's io_handle for an SPI bus, the i80 variant's otherwise |
| BusUnion.Callback | src/bus.c:53 | the spi variant's callback for an SPI bus, the i80 variant's otherwise |
| BusUnion.WithCallback | src/bus.c:105-109 | only the active variant's callback slot is written |
| BusUnion.CallbackSlotLaws | src/bus.c:105-109 | reading the slot after a store gives the stored value, io_handle is untouched, re-storing is a no-op, the last store wins |
| BusUnion.SendSequence | src/bus.c:61-77 | command alone as (cmd, NULL, 0) strictly before data as (0, buf, len); each only if not None; both None sends nothing |
| BusUnion.ColorRequest | src/bus.c:83-87 | command and colour buffer are both mandatory; the transfer carries the buffer's bytes and length |
| BusUnion.ColorRequestAgreesWithBusesCommon | src/bus.c:83-87 | same transfer as the per-instance revisions for any given buffer, an error where they would send NULL |
| BusUnion.BusObject.ColorTransDone | src/bus.c:51-59 | delivered only to the holder of the accepted transfer; calls the active variant's callback whenever it is not None, clears the shared flag, returns false |
| BusUnion.BusObject.ColorTransDoneGuarded | src/bus.c:54 | corrected completion: only a callable slot is called, so every called object is callable |
| BusUnion.BusObject.Send | src/bus.c:61-77 | the transfers and outcome of SendSequence on the active io_handle |
| BusUnion.BusObject.SendColor | src/bus.c:80-96 | waits for the shared flag (the holder's completion), sets it and issues exactly one tx_color whose status is discarded; a refusal strands the flag; with a stranded flag the call is Hung and issues nothing |
| BusUnion.RefusedColorTransferStalls | src/bus.c:89-93 | after one refused tx_color, the next send_color on any bus of the file is Hung for every poll budget |
| BusUnion.BusObject.RegisterCallback | src/bus.c:99-111 | rejects a non-callable non-None value with ValueError; otherwise writes only the active variant's slot |
| PyDevices.Device.ColorTransDone | src/pydevices.c:73-80 | delivered only to the holder of the accepted transfer; calls the slot when not None, clears the shared flag, returns false |
| PyDevices.Device.ColorTransDoneGuarded | src/pydevices.c:75 | corrected completion: only a callable slot is called |
| PyDevices.Device.Send | src/pydevices.c:82-99 | the command alone first, then the data with command 0, each only if not None |
| PyDevices.Device.TransColor | src/pydevices.c:102-117 | lcd_cmd always converted; waits for the shared flag (the holder's completion), sets it, issues one tx_color whose status is discarded; a refusal strands the flag; with a stranded flag the call is Hung |
| PyDevices.Device.RegisterCallback | src/pydevices.c:120-128 | ValueError for a non-callable non-None value, otherwise stored |
| PyDevices.RefusedColorTransferStalls | src/pydevices.c:110-114 | after one refused tx_color, the next trans_color on any device of the file is Hung for every poll budget |
| SpiModeBits.LowBit | src/spibus.c:116 | `x & 1` is 0 or 1 and has the parity of x, negative x included |
| SpiModeBits.SpiMode | src/spibus.c:116 | the mode lies in 0..3, bit 0 is the low bit of polarity and bit 1 that of phase |
| SpiModeBits.SpiModeLowBitsOnly | src/busdrivers/spibus.c:120 | only the low bit of polarity and of phase affects the mode |
| SpiModeBits.SpiModeInjective | src/spibus.c:116 | distinct low-bit pairs give distinct modes |
| SpiModeBits.SpiModeSwapsCpolAndCpha | src/busdrivers/spibus.c:120 | the driver reads the phase argument as CPOL and the polarity argument as CPHA |
| SpiModeBits.SpiModeCounterexample | src/spibus.c:116 | polarity 1, phase 0 gives mode 1, which is CPOL 0, CPHA 1 |
| SpiModeBits.StandardSpiMode | src/spibus.c:116 | corrected encoding: CPOL is polarity and CPHA is phase |
| SpiModeBits.EncodingsAgreeIffSymmetric | src/spibus.c:116 | as-written and corrected modes agree exactly when the two low bits are equal |
| SpiBus.BusConfig | src/spibus.c:102-109 | the three pins given, quad pins -1, max transfer size 0; src/busdrivers/spibus.c:103-110 builds the same record |
| SpiBus.IoConfig | src/spibus.c:112-125 | `bits` sets both command and parameter width; mode from polarity/phase; queue depth 10; completions go to color_trans_done with the new bus object as user_ctx |
| SpiBus.DefaultConfiguration | src/spibus.c:81-93 | host 2, 24 MHz, mode 0, 8-bit command and parameter by default |
| SpiBus.MakeNew | src/spibus.c:98-130 | initialises host `id`, then creates the panel IO; either failure aborts; the result is the spi variant with an unwritten callback slot; the panel IO is created with color_trans_done as handler and the new bus as user_ctx |
| SpiBus.ColorCycle | src/bus.c:51-96 | one send_color and its completion call the slot when it is not None (as written), or only when it is callable (guarded) |
| SpiBus.UnregisteredCallbackIsCalled | src/bus.c:54-55 | a new SPI bus, built from any arguments, without a registered callback has the NULL slot called on completion |
| SpiBus.UnregisteredCallbackIsSkipped | src/bus.c:54 | with the guarded completion nothing is called |
| BusDriversSpiBus.IoConfig | src/busdrivers/spibus.c:116-129 | command and parameter widths forwarded independently; mode from polarity/phase; queue depth 1; completions go to color_trans_done with the new bus object as user_ctx |
| BusDriversSpiBus.DefaultConfiguration | src/busdrivers/spibus.c:77-90 | host 2, 24 MHz, mode 0, 8-bit command and parameter by default |
| BusDriversSpiBus.MakeNew | src/busdrivers/spibus.c:95-137 | a bus-initialise failure raises OSError before any panel-IO creation; a panel-IO failure raises OSError; success returns an idle bus with the handle; the panel IO is created with color_trans_done as handler and the new bus as user_ctx |
| Esp32I80Bus.DataPins | src/buses/esp32/i80bus.c:79-114 | a non-tuple/list, a count other than 8 or 16, or a non-int pin raise their ValueErrors in that order; slot i holds pin i, the rest -1 |
| Esp32I80Bus.FillDataPins | src/buses/esp32/i80bus.c:104-114 | the two fill loops compute DataPins |
| Esp32I80Bus.BusConfig | src/buses/esp32/i80bus.c:94-102 | bus width equals the number of data pins; max transfer 4096 bytes |
| Esp32I80Bus.IoConfig | src/buses/esp32/i80bus.c:122-145 | D/C high for data and idle, low for command and dummy; all flags false; queue depth 10; completions go to color_trans_done with the new bus object as user_ctx |
| Esp32I80Bus.MakeNew | src/buses/esp32/i80bus.c:72-152 | invalid pins reach no driver call; a bus or panel-IO failure raises OSError; success returns an idle bus with the handle; the panel IO is created with color_trans_done as handler and the new bus as user_ctx; the panel IO is created on the bus handle the driver returned |
| PyDevicesI80Bus.WithDefaults | src/i80bus.c:88-107 | rd -1, cs -1, pclk 10 MHz, bus width 8, 8-bit command/parameter, D/C data level 1, flags false |
| PyDevicesI80Bus.DataSlots | src/i80bus.c:118-130 | more than 16 pins raise ValueError; slot i is pin i for i < len and -1 up to 24; a pin that `mp_obj_get_int` cannot convert raises TypeError |
| PyDevicesI80Bus.FillDataSlots | src/i80bus.c:118-130 | the two fill loops compute DataSlots |
| PyDevicesI80Bus.BusConfig | src/i80bus.c:153-169 | only slots 0..7 reach the driver, with bus width fixed at 8 and PLL160M clock |
| PyDevicesI80Bus.IoConfig | src/i80bus.c:173-194 | dc levels and flags are copied unchanged from the object; queue depth 10; completions go to color_trans_done with the new bus object as user_ctx |
| PyDevicesI80Bus.Stored | src/i80bus.c:123-147 | the object before any driver call holds the data slots and every keyword, with bus_width ending as the keyword value and no handles |
| PyDevicesI80Bus.MakeNew | src/i80bus.c:113-202 | stores every argument, with bus_width ending as the keyword value; the driver calls follow, configured from the stored object, and a failure aborts with the calls made so far a prefix of that sequence; the panel IO is created on the stored bus handle |
| PyDevicesI80Bus.SixteenPinsConfigureEightBitBus | src/i80bus.c:156-167 | with 16 pins the driver still gets an 8-bit bus on the first eight |
| PyDevicesI80Bus.ColorCycle | src/pydevices.c:73-117 | one trans_color and its completion call the slot when it is not None (as written), or only when it is callable (guarded) |
| PyDevicesI80Bus.UnregisteredCallbackIsCalled | src/pydevices.c:75-76 | a new i80 bus, built from any arguments that pass pin validation, without a registered callback has the NULL slot called on completion |
| PyDevicesI80Bus.UnregisteredCallbackIsSkipped | src/pydevices.c:75 | with the guarded completion nothing is called |
| RgbFrameBuffer.Uint16 | src/rgbframebuffer.h:33-34 | storing into uint16_t reduces modulo 2^16 and keeps values already in range |
| RgbFrameBuffer.GroupPins | src/rgbframebuffer.c:168-171 | a group must be a tuple or list of ints (TypeError otherwise) and gives its pins in order |
| RgbFrameBuffer.DataPins | src/rgbframebuffer.c:163-181 | data_gpio_nums is blue ++ green ++ red from slot 0, remaining slots 0 |
| RgbFrameBuffer.DataPinsAt | src/rgbframebuffer.c:163-181 | slot k holds blue pin k, then green pin k-len(blue), then red pin k-len(blue)-len(green), then 0 |
| RgbFrameBuffer.PackGroup | src/rgbframebuffer.c:168-171 | one loop writes the group's pins from pin_idx on and returns the next index, touching no other slot |
| RgbFrameBuffer.PackDataPins | src/rgbframebuffer.c:163-181 | the three pin_idx loops compute DataPins |
| RgbFrameBuffer.Timings | src/rgbframebuffer.c:122-139 | geometry and porches as given; pclk_active_neg is the negation of pclk_active_high |
| RgbFrameBuffer.PanelConfig | src/rgbframebuffer.c:120-161 | 16-bit data, 16 bits per pixel, one frame buffer, 64-byte alignments, no DISP pin |
| RgbFrameBuffer.MakeNew | src/rgbframebuffer.c:114-205 | pins are packed before any driver call; create, reset, init and get_frame_buffer(1) run in order, each failure aborting |
| RgbFrameBuffer.LoadAttr | src/rgbframebuffer.c:215-225 | width and height load as ints; other names are not answered |
| RgbFrameBuffer.AttributesEchoConstruction | src/rgbframebuffer.c:116-117 | the attributes return the constructor's width and height as uint16 |
| RgbFrameBuffer.ExportBuffer | src/rgbframebuffer.c:208-213 | the frame buffer's bytes with typecode 'H', always successful |
| RgbFrameBuffer.Refresh | src/rgbframebuffer.c:72-80 | needs a writable buffer (TypeError otherwise) and draws it from (0,0) to (width+1, height+1) |
| RgbFrameBuffer.RefreshPanel | src/rgbframebuffer.c:77 | corrected refresh: draws exactly (0,0) to (width, height) |
| RgbFrameBuffer.RefreshOverrunsFrameBuffer | src/rgbframebuffer.c:77 | with its own frame buffer, refresh requests width + height + 1 pixels beyond its end |
| RgbFrameBuffer.RefreshOverrunExample | src/rgbframebuffer.c:30-33 | on a 720 x 720 panel, the size of the module's usage example, that is 1441 pixels |
| RgbFrameBuffer.RefreshPanelCoversFrameBuffer | src/rgbframebuffer.c:77 | the corrected draw covers the frame buffer exactly |

## Left out

- Interrupt-context marshaling of the callback (`cb_isr`, src/common.c:58-91), interleavings of the completion with foreground code, and `mp_handle_pending` yielding: the completion is a sequential event method, and a callback "runs" by being appended to the `invoked` log.
- Exceptions raised inside a callback are not modelled; src/common.c catches them in `cb_isr`, and src/bus.c and src/pydevices.c call the callback directly.
- The ESP-IDF driver: every call is recorded with its configuration, and its status and handles are inputs. `ESP_ERROR_CHECK` failures are the `Abort` error.
- The driver's transfer queue: a panel IO with several queued colour transfers is reduced to one flag with its holder, or to one `inFlight` bit.
- A wait that never ends is reported as the outcome `Hung` after `polls + 1` polls. The model does not represent the non-terminating loop itself.
- Common.Bus.SendColor, BusUnion.BusObject.SendColor and PyDevices.Device.TransColor require `owner` to be the flag's holder when there is one. The model does not describe a completion delivered to another bus, which the driver never does.
- MicroPython argument parsing, type and module tables, `print` handlers and the `MP_DEFINE_*` objects: constructors take their parsed arguments as an `Args` record, and methods take the positional arguments after `self`.
- ByteSwap.ByteSwap and Common.SwapBytes take the buffer itself: the TypeError that `mp_get_buffer_raise` raises for a non-buffer argument is not modelled. Neither is the READ access request of swap_bytes on a buffer it writes.
- Command values are unbounded integers: the truncation of `mp_obj_get_int` results to a C `int` is not modelled.
- RgbFrameBuffer.MakeNew takes the frame buffer's bytes as an input: src/rgbframebuffer.c:203 passes the driver's raw pointer to `mp_get_buffer_raise` as if it were an object. What that call does with it is not modelled.
- RgbFrameBuffer.PackDataPins, RgbFrameBuffer.DataPins and RgbFrameBuffer.MakeNew require the three groups to fit the 16 configuration slots: the source writes past the array otherwise.
- PyDevicesI80Bus.FillDataSlots, PyDevicesI80Bus.MakeNew, PyDevicesI80Bus.UnregisteredCallbackIsCalled and PyDevicesI80Bus.UnregisteredCallbackIsSkipped require the data argument to be a tuple: the source reads it as one without a check.
- BusesCommon.Bus.Send, BusesCommon.Bus.SendColor, BusesCommon.Bus.SendColorRestoring, BusDriversCommon.Bus.Send and BusDriversCommon.Bus.SendColor require at least one argument after self. The methods are registered for 1 to 3 arguments including self (src/buses/esp32/i80bus.c:155-156, src/busdrivers/spibus.c:140-141), so a call with self alone passes the arity check and then reads the missing command past the end of the argument array (src/buses/common/common.c:28,47; src/busdrivers/common.c:43,60). What that read returns is not modelled.
- `refresh` and `swap_bytes` of the RGB frame buffer are in its locals dictionary, but `rgbframebuffer_attr` answers every attribute load itself (RgbFrameBuffer.LoadAttr), so they are not found through an instance. RgbFrameBuffer.Refresh models the function as reached through the type.
- The `name` field that src/i80bus.c:115 sets is not modelled.
- The fallback type definition of src/i80bus.c:222-230 refers to names the file does not define and is not part of this model.
- The header for the pydevices i80 object is not part of this model; its fields are the ones the constructor writes.
- Common.Bus, PyDevices.Device and BusUnion.BusObject are built by model constructors that take the initial state as inputs. The callback slot comes from SpiBus.MakeNew or PyDevicesI80Bus.MakeNew, where no constructor writes it.

## Findings

| source | as written | input that shows it | evidently intended | confidence | as-written member | corrected member |
|---|---|---|---|---|---|---|
| src/spibus.c:116 | polarity goes to bit 0 and phase to bit 1 of spi_mode | polarity=1, phase=0 gives mode 1, which is CPOL 0, CPHA 1 | `((polarity & 1) << 1) \| (phase & 1)`, the conventional mode number | medium, not executed | SpiModeBits.SpiModeCounterexample | SpiModeBits.StandardSpiMode |
| src/busdrivers/spibus.c:120 | the same expression as src/spibus.c:116 | polarity=1, phase=0 | the same correction | medium, not executed | SpiModeBits.SpiModeSwapsCpolAndCpha | SpiModeBits.StandardSpiMode |
| src/buses/common/common.c:60-64 | a refused tx_color raises with trans_done left false and nothing in flight | send_color with a nonzero tx_color status, then any send_color: its first wait spins forever | trans_done set again when the transfer is refused | high, not executed | BusesCommon.RefusedColorTransferStalls | BusesCommon.Bus.SendColorRestoring |
| src/common.c:142-144 | the flag is set and the tx_color status discarded, so a refused transfer leaves the flag set with no completion coming | a tx_color the driver refuses, then any send_color of the file: its wait spins forever | set the flag only for an accepted transfer | high, not executed | Common.RefusedColorTransferStalls | ColorTransFlag.Flag.IssueChecked |
| src/bus.c:91-93 | the same as src/common.c:142-144 | a refused tx_color, then any send_color | the same correction | high, not executed | BusUnion.RefusedColorTransferStalls | ColorTransFlag.Flag.IssueChecked |
| src/pydevices.c:112-114 | the same as src/common.c:142-144 | a refused tx_color, then any trans_color | the same correction | high, not executed | PyDevices.RefusedColorTransferStalls | ColorTransFlag.Flag.IssueChecked |
| src/busdrivers/common.c:70-74 | the tx_color slot returns nothing, so a refused transfer is waited for with no completion coming | send_color with a tx_color the driver refuses: it never returns | check the status and restore trans_done on refusal, as the later revision's corrected send_color does | high, not executed | BusDriversCommon.RefusedColorTransferHangs | BusesCommon.Bus.SendColorRestoring |
| src/bus.c:54-55 | the callback slot is called whenever it is not None | SPIBus(), send_color, completion without register_callback: the never-written MP_OBJ_NULL slot is called | call only a callable slot, as src/common.c:95 does | medium (assumes the zero-filled allocation), not executed | SpiBus.UnregisteredCallbackIsCalled | BusUnion.BusObject.ColorTransDoneGuarded |
| src/pydevices.c:75-76 | the same test as src/bus.c:54 | I80_BUS(data), trans_color, completion without register_callback | call only a callable slot | medium (assumes the zero-filled allocation), not executed | PyDevicesI80Bus.UnregisteredCallbackIsCalled | PyDevices.Device.ColorTransDoneGuarded |
| src/rgbframebuffer.c:77 | draws from (0,0) to (width+1, height+1), ends exclusive | a 720 x 720 panel `fb`, called as `RGBFrameBuffer.refresh(fb, fb)` (the instance lookup of `fb.refresh` does not find it; see Left out): 1441 pixels more than the 2*720*720-byte frame buffer holds | draw to (width, height) | high, not executed | RgbFrameBuffer.RefreshOverrunsFrameBuffer | RgbFrameBuffer.RefreshPanelCoversFrameBuffer |
| src/rgbframebuffer/esp32/rgbframebuffer.c:37 | the same draw as src/rgbframebuffer.c:77 | the same panel, the same call through the type | draw to (width, height) | high, not executed | RgbFrameBuffer.RefreshOverrunExample | RgbFrameBuffer.RefreshPanel |

The constructors and methods model the code as written. Each corrected member sits beside
the member it corrects and carries the property the correction restores.


=== FILE: bus.dfy ===
/**
 * src/bus.c over the union of src/bus.h: one set of bus methods shared by the SPI bus
 * (src/spibus.c) and the i80 bus, with the fire-and-forget handshake on the file's
 * module-level flag. Every method picks io_handle and callback out of the variant that the
 * object's type tag names.
 */
module BusUnion {
  import opened MicroPython
  import opened EspLcd
  import opened ColorTransFlag
  import Common
  import BusesCommon

  /** spibus_obj_t of src/spibus.h. */
  datatype SpiBusObj = SpiBusObj(ioHandle: nat, callback: Obj, spiHost: int)

  /** i80bus_obj_t: a panel IO, a callback slot and the i80 bus handle. */
  datatype I80BusObj = I80BusObj(ioHandle: nat, callback: Obj, busHandle: nat)

  /** bus_obj_t: the union, tagged by the object's type (spibus_type or not). */
  datatype BusObj = Spi(spi: SpiBusObj) | I80(i80: I80BusObj)

  /** The io_handle the methods use: the spi variant's for an SPI bus, the i80 variant's otherwise. */
  function IoHandle(b: BusObj): (h: nat)
    ensures b.Spi? ==> h == b.spi.ioHandle
    ensures !b.Spi? ==> h == b.i80.ioHandle
  {
    match b
    case Spi(s) => s.ioHandle
    case I80(i) => i.ioHandle
  }

  /** The callback slot the methods use, chosen the same way. */
  function Callback(b: BusObj): (cb: Obj)
    ensures b.Spi? ==> cb == b.spi.callback
    ensures !b.Spi? ==> cb == b.i80.callback
  {
    match b
    case Spi(s) => s.callback
    case I80(i) => i.callback
  }

  /** The object after register_callback's store: only the active variant's slot is written. */
  function WithCallback(b: BusObj, cb: Obj): (r: BusObj)
    ensures r.Spi? == b.Spi?
    ensures r.Spi? ==> r.spi == b.spi.(callback := cb)
    ensures r.I80? ==> r.i80 == b.i80.(callback := cb)
  {
    match b
    case Spi(s) => Spi(s.(callback := cb))
    case I80(i) => I80(i.(callback := cb))
  }

  /**
   * Storing a callback and reading it back agree: the slot read is the slot written, the
   * io_handle and the rest of the variant are untouched, re-storing the current value
   * changes nothing, and a second store overrides the first.
   */
  lemma CallbackSlotLaws(b: BusObj, c1: Obj, c2: Obj)
    ensures Callback(WithCallback(b, c1)) == c1
    ensures IoHandle(WithCallback(b, c1)) == IoHandle(b)
    ensures WithCallback(b, Callback(b)) == b
    ensures WithCallback(WithCallback(b, c1), c2) == WithCallback(b, c2)
  {
    match b
    case Spi(s) =>
      assert s.(callback := s.callback) == s;
    case I80(i) =>
      assert i.(callback := i.callback) == i;
  }

  /** What send did: the transfers it handed to the driver, and how it returned. */
  datatype Sent = Sent(transfers: seq<Transfer>, outcome: Outcome)

  /**
   * send(command, data): the command alone as tx_param(cmd, NULL, 0), then the data as
   * tx_param(0, buf, len), each only when it is not None. The command is converted before
   * anything is sent; the data only after the command has gone out.
   */
  function SendSequence(io: nat, command: Obj, data: Obj): (r: Sent)
    ensures r.outcome.Done? <==> (command == None || GetInt(command).Ok?) && (data == None || GetBuffer(data, false).Ok?)
    ensures r.outcome.Raised? ==> r.outcome.error == TypeError
    ensures |r.transfers| == (if command != None && GetInt(command).Ok? then 1 else 0) + (if r.outcome.Done? && data != None then 1 else 0)
    ensures forall i :: 0 <= i < |r.transfers| ==> r.transfers[i].io == io && r.transfers[i].via == TxParam
    ensures command != None && GetInt(command).Ok? ==> r.transfers[0] == Transfer(io, TxParam, GetInt(command).value, NullBuf)
    ensures r.outcome.Done? && data != None ==> r.transfers[|r.transfers| - 1] == Transfer(io, TxParam, 0, Bytes(data.bytes))
  {
    if command != None && GetInt(command).Err? then Sent([], Raised(TypeError))
    else
      var first := if command == None then [] else [Transfer(io, TxParam, GetInt(command).value, NullBuf)];
      if data == None then Sent(first, Done)
      else
        var buf := GetBuffer(data, false);
        if buf.Err? then Sent(first, Raised(buf.error))
        else Sent(first + [Transfer(io, TxParam, 0, Bytes(buf.value))], Done)
  }

  /**
   * send_color(lcd_cmd, color): both are converted, the command first; there is no None
   * default for either.
   */
  function ColorRequest(io: nat, lcdCmd: Obj, color: Obj): (r: Result<Transfer>)
    ensures r.Ok? <==> GetInt(lcdCmd).Ok? && GetBuffer(color, false).Ok?
    ensures r.Err? ==> r.error == TypeError
    ensures r.Ok? ==> r.value.io == io && r.value.via == TxColor && r.value.cmd == GetInt(lcdCmd).value
    ensures r.Ok? ==> r.value.data == Bytes(color.bytes) && Len(r.value.data) == |color.bytes|
  {
    var cmd := GetInt(lcdCmd);
    if cmd.Err? then Err(cmd.error)
    else
      var buf := GetBuffer(color, false);
      if buf.Err? then Err(buf.error) else Ok(Transfer(io, TxColor, cmd.value, Bytes(buf.value)))
  }

  /**
   * Against the per-instance revisions: the same transfer for every colour buffer given,
   * and a TypeError where those revisions would send a NULL buffer.
   */
  lemma ColorRequestAgreesWithBusesCommon(io: nat, lcdCmd: Obj, color: Obj)
    ensures color != None ==> ColorRequest(io, lcdCmd, color) == BusesCommon.Request(io, TxColor, lcdCmd, color)
    ensures color == None ==> ColorRequest(io, lcdCmd, color).Err?
  {
  }

  /** A bus object of src/bus.c, with the file's shared flag. */
  class BusObject {
    /** The file's color_trans_active flag, shared with every other bus object. */
    const flag: Flag
    /** The union's contents, as the variant's constructor left them and register_callback updates them. */
    var obj: BusObj
    /** The panel-IO transfers issued so far, oldest first. */
    var calls: seq<Transfer>
    /** The objects the completion interrupt has called so far, oldest first. */
    var invoked: seq<Obj>

    /** A bus object holding `obj`, before any method has run. */
    constructor (flag: Flag, obj: BusObj)
      ensures this.flag == flag && this.obj == obj
      ensures calls == [] && invoked == []
    {
      this.flag := flag;
      this.obj := obj;
      calls := [];
      invoked := [];
    }

    /**
     * color_trans_done as written: calls the active variant's callback whenever it is not
     * None (a slot that was never written holds MP_OBJ_NULL and is called too), then clears
     * the shared flag.
     */
    method ColorTransDone() returns (yieldNeeded: bool)
      requires flag.holder == this
      modifies this`invoked, flag
      ensures !flag.active && flag.holder == null && !yieldNeeded
      ensures invoked == old(invoked) + (if Callback(obj) != None then [Callback(obj)] else [])
    {
      var callback := Callback(obj);
      if callback != None {
        invoked := invoked + [callback];
      }
      flag.active := false;
      flag.holder := null;
      yieldNeeded := false;
    }

    /**
     * color_trans_done as evidently intended (the test src/common.c makes): only a
     * callable slot is called, so every object the interrupt calls is callable.
     */
    method ColorTransDoneGuarded() returns (yieldNeeded: bool)
      requires flag.holder == this
      modifies this`invoked, flag
      ensures !flag.active && flag.holder == null && !yieldNeeded
      ensures invoked == old(invoked) + Common.Fired(Callback(obj))
      ensures (forall i :: 0 <= i < old(|invoked|) ==> IsCallable(invoked[i])) ==>
              forall i :: 0 <= i < |invoked| ==> IsCallable(invoked[i])
    {
      var callback := Callback(obj);
      if IsCallable(callback) {
        invoked := invoked + [callback];
      }
      flag.active := false;
      flag.holder := null;
      yieldNeeded := false;
    }

    /** send(command, data): the command's transfer, then the data's, in that order. */
    method Send(command: Obj, data: Obj) returns (r: Outcome)
      modifies this`calls
      ensures calls == old(calls) + SendSequence(IoHandle(obj), command, data).transfers
      ensures r == SendSequence(IoHandle(obj), command, data).outcome
    {
      var io := IoHandle(obj);
      if command != None {
        var cmd := GetInt(command);
        if cmd.Err? {
          return Raised(cmd.error);
        }
        calls := calls + [Transfer(io, TxParam, cmd.value, NullBuf)];
      }
      if data != None {
        var buf := GetBuffer(data, false);
        if buf.Err? {
          return Raised(buf.error);
        }
        calls := calls + [Transfer(io, TxParam, 0, Bytes(buf.value))];
      }
      r := Done;
    }

    /**
     * send_color(lcd_cmd, color): converts both, busy-waits while the shared flag is set,
     * sets it and issues one tx_color transfer whose status (an input here) is discarded.
     * The completion that ends the wait goes to `owner`, the bus whose transfer the driver
     * holds, and arrives after `polls` polls; a stranded flag makes the call `Hung`.
     */
    method SendColor(lcdCmd: Obj, color: Obj, status: int, owner: BusObject, polls: nat) returns (r: Outcome)
      requires owner.flag == flag
      requires flag.holder != null ==> flag.holder == owner
      modifies this`calls, flag, owner`invoked
      ensures match ColorRequest(IoHandle(obj), lcdCmd, color)
        case Err(e) =>
          r == Raised(e) && calls == old(calls) && owner.invoked == old(owner.invoked)
          && flag.active == old(flag.active) && flag.holder == old(flag.holder)
        case Ok(t) =>
          (old(flag.Stranded()) ==>
            r == Hung && calls == old(calls) && owner.invoked == old(owner.invoked) && flag.Stranded())
          && (!old(flag.Stranded()) ==>
            r == Done && calls == old(calls) + [t]
            && owner.invoked == old(owner.invoked)
               + (if old(flag.active) && Callback(owner.obj) != None then [Callback(owner.obj)] else [])
            && flag.active && flag.holder == (if status == ESP_OK then this else null))
    {
      var req := ColorRequest(IoHandle(obj), lcdCmd, color);
      if req.Err? {
        return Raised(req.error);
      }
      ghost var wasActive := flag.active;
      ghost var stranded := flag.Stranded();
      ghost var fired := if Callback(owner.obj) != None then [Callback(owner.obj)] else [];
      var n := 0;
      while flag.active && n <= polls
        invariant n <= polls + 1
        invariant calls == old(calls)
        invariant stranded ==> flag.Stranded() && owner.invoked == old(owner.invoked)
        invariant !stranded && n == polls + 1 ==> !flag.active
        invariant !stranded && flag.active ==> flag.holder == owner
        invariant !wasActive ==> !flag.active
        invariant owner.invoked == old(owner.invoked) + (if wasActive && !flag.active then fired else [])
        decreases polls + 1 - n
      {
        if n == polls && flag.holder == owner {
          var _ := owner.ColorTransDone();
        }
        n := n + 1;
      }
      if flag.active {
        return Hung;
      }
      flag.Issue(this, status);
      calls := calls + [req.value];
      r := Done;
    }

    /** register_callback(callback): a callable or None is stored in the active variant only. */
    method RegisterCallback(cb: Obj) returns (r: Outcome)
      modifies this`obj
      ensures IsCallable(cb) || cb == None ==> r == Done && obj == WithCallback(old(obj), cb)
      ensures !IsCallable(cb) && cb != None ==> r == Raised(ValueError(Common.CallbackMsg)) && obj == old(obj)
    {
      if !IsCallable(cb) && cb != None {
        return Raised(ValueError(Common.CallbackMsg));
      }
      obj := WithCallback(obj, cb);
      r := Done;
    }
  }

  /**
   * A colour transfer the driver refuses strands the shared flag: the next send_color, on
   * this bus or any other of the file, never returns, however long it polls.
   */
  method RefusedColorTransferStalls(a: BusObj, b: BusObj, status: int, polls: nat) returns (first: Outcome, second: Outcome)
    requires status != ESP_OK
    ensures first == Done && second == Hung
  {
    var flag := new Flag();
    var x := new BusObject(flag, a);
    var y := new BusObject(flag, b);
    first := x.SendColor(Int(0x2C), Buffer([0x12, 0x34], false), status, x, 0);
    second := y.SendColor(Int(0x2C), Buffer([0x56, 0x78], false), ESP_OK, y, polls);
  }
}

=== FILE: busdrivers_common.dfy ===
/**
 * src/busdrivers/common.c over the bus object of src/busdrivers/common.h: the blocking
 * revision of the transfer handshake. `send_color` clears `trans_done`, issues the transfer
 * through the stored tx_color slot and returns only once the completion interrupt has set
 * `trans_done` again. The slots return nothing, so the driver's status is never seen:
 * a transfer the driver refuses leaves that wait with no completion to end it.
 *
 * As in module BusesCommon, the field `inFlight` (driver state, not a C field) records an
 * accepted colour transfer whose completion is still to come.
 */
module BusDriversCommon {
  import opened MicroPython
  import opened EspLcd
  import Common
  import BusesCommon

  /** bus_obj_t of src/busdrivers/common.h. */
  class Bus {
    /** io_handle: the panel IO, written once the constructor has created it. */
    var ioHandle: nat
    /** trans_done: no colour transfer of this bus is outstanding. */
    var transDone: bool
    /** The driver entry points bound to the tx_param and tx_color slots. */
    var txParam: VendorTx
    var txColor: VendorTx
    /** The panel-IO transfers issued so far, oldest first. */
    var calls: seq<Transfer>
    /** The driver holds an accepted colour transfer whose completion is still to come. */
    var inFlight: bool

    /** A transfer in flight has not completed yet. */
    ghost predicate Valid()
      reads this
    {
      inFlight ==> !transDone
    }

    /** A freshly allocated bus as spibus_make_new prepares it: idle, slots bound to the driver. */
    constructor ()
      ensures Valid() && transDone && !inFlight
      ensures txParam == TxParam && txColor == TxColor
      ensures ioHandle == 0 && calls == []
    {
      ioHandle := 0;
      transDone := true;
      txParam := TxParam;
      txColor := TxColor;
      calls := [];
      inFlight := false;
    }

    /** color_trans_done: the driver signals completion of this bus's colour transfer. */
    method ColorTransDone() returns (yieldNeeded: bool)
      requires Valid() && inFlight
      modifies this`transDone, this`inFlight
      ensures Valid() && transDone && !inFlight && !yieldNeeded
    {
      transDone := true;
      inFlight := false;
      yieldNeeded := false;
    }

    /**
     * send(command, data=None): exactly one transfer through the tx_param slot, with no
     * status check. `args` are the arguments after self.
     */
    method Send(args: seq<Obj>) returns (r: Outcome)
      requires |args| >= 1
      modifies this`calls
      ensures match BusesCommon.Request(ioHandle, txParam, args[0], Common.Arg(args, 1))
        case Err(e) => r == Raised(e) && calls == old(calls)
        case Ok(t) => r == Done && calls == old(calls) + [t]
    {
      var req := BusesCommon.Request(ioHandle, txParam, args[0], Common.Arg(args, 1));
      if req.Err? {
        return Raised(req.error);
      }
      calls := calls + [req.value];
      r := Done;
    }

    /**
     * send_color(command, data=None): clear trans_done with no wait beforehand, issue
     * through the tx_color slot, then poll until the completion sets trans_done. The driver
     * accepts the transfer when `status` is ESP_OK, and its completion then arrives after
     * `polls` polls; a refused transfer is never completed, so the wait spins forever and
     * the call is `Hung`. The previous colour transfer has always completed by then, since
     * every send_color waits for its own.
     */
    method SendColor(args: seq<Obj>, status: int, polls: nat) returns (r: Outcome)
      requires |args| >= 1 && Valid() && !inFlight
      modifies this`calls, this`transDone, this`inFlight
      ensures Valid() && !inFlight
      ensures match BusesCommon.Request(ioHandle, txColor, args[0], Common.Arg(args, 1))
        case Err(e) => r == Raised(e) && calls == old(calls) && transDone == old(transDone)
        case Ok(t) =>
          calls == old(calls) + [t]
          && (status == ESP_OK ==> r == Done && transDone)
          && (status != ESP_OK ==> r == Hung && !transDone)
    {
      var req := BusesCommon.Request(ioHandle, txColor, args[0], Common.Arg(args, 1));
      if req.Err? {
        return Raised(req.error);
      }
      transDone := false;
      calls := calls + [req.value];
      inFlight := status == ESP_OK;
      var n := 0;
      while !transDone && n <= polls
        invariant Valid()
        invariant n <= polls + 1
        invariant status == ESP_OK && n == polls + 1 ==> transDone
        invariant status == ESP_OK ==> (transDone <==> !inFlight)
        invariant status != ESP_OK ==> !transDone && !inFlight
        invariant calls == old(calls) + [req.value]
        decreases polls + 1 - n
      {
        if n == polls && inFlight {
          var _ := ColorTransDone();
        }
        n := n + 1;
      }
      if !transDone {
        return Hung;
      }
      r := Done;
    }
  }

  /**
   * A colour transfer the driver refuses is never completed: send_color does not return,
   * however long it polls, and trans_done stays clear.
   */
  method RefusedColorTransferHangs(status: int, polls: nat) returns (r: Outcome, transDone: bool)
    requires status != ESP_OK
    ensures r == Hung && !transDone
  {
    var bus := new Bus();
    r := bus.SendColor([Int(0x2C), Buffer([0x12, 0x34], false)], status, polls);
    transDone := bus.transDone;
  }
}

=== FILE: busdrivers_spibus.dfy ===
/**
 * src/busdrivers/spibus.c: the SPI bus constructor of the blocking revision. The bus
 * object is prepared first (slots bound to the driver, trans_done set); a failure of either
 * driver call raises OSError, and the panel IO is only attempted once the host is
 * initialised.
 */
module BusDriversSpiBus {
  import opened MicroPython
  import opened EspLcd
  import opened SpiModeBits
  import BusDriversCommon
  import SpiBus

  const InitMsg: string := "Failed to create SPIBus.  You must hard reset the board to release the bus."
  const IoMsg: string := "Failed to create SPI panel IO."

  /** The constructor's keyword arguments, after parsing. */
  datatype Args = Args(
    id: int, baudrate: int, polarity: int, phase: int, lsbFirst: bool,
    sck: int, mosi: int, miso: int, dc: int, cs: int, cmdBits: int, paramBits: int)

  /** The keyword defaults. */
  const DefaultArgs: Args := Args(2, 24000000, 0, 0, false, -1, -1, -1, -1, -1, 8, 8)

  /**
   * esp_lcd_panel_io_spi_config_t: command and parameter widths forwarded independently,
   * the mode from the low bits of polarity and phase, and a queue of one transfer;
   * completions go to color_trans_done with the new bus object as context.
   */
  function IoConfig(a: Args): (c: SpiIoConfig)
    ensures c.cmdBits == a.cmdBits && c.paramBits == a.paramBits
    ensures c.spiMode == SpiMode(a.polarity, a.phase) && 0 <= c.spiMode <= 3
    ensures c.queueDepth == 1
    ensures c.dc == a.dc && c.cs == a.cs && c.pclkHz == a.baudrate
    ensures c.lsbFirst == a.lsbFirst && !c.dcLowOnData && !c.octalMode
    ensures c.onColorTransDone == ColorTransDoneHandler && c.userCtx == SelfCtx
  {
    SpiIoConfig(a.dc, a.cs, a.baudrate, SpiMode(a.polarity, a.phase), a.cmdBits, a.paramBits, 1,
                a.lsbFirst, false, false, ColorTransDoneHandler, SelfCtx)
  }

  /** With no keywords: host 2, mode 0 at 24 MHz, 8-bit commands and parameters. */
  lemma DefaultConfiguration()
    ensures DefaultArgs.id == 2
    ensures IoConfig(DefaultArgs).pclkHz == 24000000 && IoConfig(DefaultArgs).spiMode == 0
    ensures IoConfig(DefaultArgs).cmdBits == 8 && IoConfig(DefaultArgs).paramBits == 8
  {
  }

  /**
   * spibus_make_new: `initStatus` and `ioStatus` are what the driver returns, `ioHandle`
   * the panel-IO handle it hands back.
   */
  method MakeNew(a: Args, initStatus: int, ioStatus: int, ioHandle: nat)
    returns (r: Result<BusDriversCommon.Bus>, vendor: seq<VendorCall>)
    ensures initStatus != ESP_OK ==>
      r == Err(OSError(InitMsg)) && vendor == [SpiBusInitialize(a.id, SpiBus.BusConfig(a.sck, a.mosi, a.miso))]
    ensures initStatus == ESP_OK ==>
      vendor == [SpiBusInitialize(a.id, SpiBus.BusConfig(a.sck, a.mosi, a.miso)), NewPanelIoSpi(a.id, IoConfig(a))]
    ensures initStatus == ESP_OK ==>
      vendor[1].spi.onColorTransDone == ColorTransDoneHandler && vendor[1].spi.userCtx == SelfCtx
    ensures initStatus == ESP_OK && ioStatus != ESP_OK ==> r == Err(OSError(IoMsg))
    ensures initStatus == ESP_OK && ioStatus == ESP_OK ==>
      r.Ok? && fresh(r.value) && r.value.Valid()
      && r.value.transDone && !r.value.inFlight
      && r.value.txParam == TxParam && r.value.txColor == TxColor
      && r.value.ioHandle == ioHandle && r.value.calls == []
  {
    var self := new BusDriversCommon.Bus();
    var spiHost := a.id;
    vendor := [SpiBusInitialize(spiHost, SpiBus.BusConfig(a.sck, a.mosi, a.miso))];
    if initStatus != ESP_OK {
      return Err(OSError(InitMsg)), vendor;
    }
    var ioConfig := IoConfig(a);
    self.ioHandle := 0;
    vendor := vendor + [NewPanelIoSpi(spiHost, ioConfig)];
    if ioStatus != ESP_OK {
      return Err(OSError(IoMsg)), vendor;
    }
    self.ioHandle := ioHandle;
    r := Ok(self);
  }
}

=== FILE: buses_common.dfy ===
/**
 * src/buses/common/common.c over the bus object of src/buses/esp32/bus.h: the
 * per-instance revision of the transfer handshake with status checks. `send_color` waits
 * for the previous colour transfer to complete, clears `trans_done`, issues the transfer,
 * raises if the driver refused it, and otherwise waits for its completion too.
 *
 * The driver's completion interrupt is the event method ColorTransDone. The field
 * `inFlight` (driver state, not a C field) records that the driver holds an accepted
 * colour transfer whose completion is still to come; only then can the event happen.
 */
module BusesCommon {
  import opened MicroPython
  import opened EspLcd
  import Common

  const SendMsg: string := "Failed to send data"
  const ColorMsg: string := "Failed to send color data"

  /**
   * The transfer `send` and `send_color` hand to the driver in this revision: the command
   * is always converted (None is a TypeError), and None data is a NULL buffer of length 0.
   */
  function Request(io: nat, via: VendorTx, command: Obj, data: Obj): (r: Result<Transfer>)
    ensures r.Ok? <==> GetInt(command).Ok? && (data == None || GetBuffer(data, false).Ok?)
    ensures r.Err? ==> r.error == TypeError
    ensures r.Ok? ==> r.value.io == io && r.value.via == via && r.value.cmd == GetInt(command).value
    ensures r.Ok? ==> (data == None <==> r.value.data == NullBuf)
    ensures r.Ok? && data != None ==> r.value.data == Bytes(data.bytes) && Len(r.value.data) == |data.bytes|
  {
    var cmd := GetInt(command);
    if cmd.Err? then Err(cmd.error)
    else if data == None then Ok(Transfer(io, via, cmd.value, NullBuf))
    else
      var buf := GetBuffer(data, false);
      if buf.Err? then Err(buf.error) else Ok(Transfer(io, via, cmd.value, Bytes(buf.value)))
  }

  /**
   * Against the fire-and-forget revision's normalisation: the two agree on every command
   * that is not None, and only that revision accepts None (as command -1).
   */
  lemma {:induction false} RequestAgreesWithCommon(io: nat, via: VendorTx, command: Obj, data: Obj)
    ensures command != None ==> Request(io, via, command, data) == Common.Request(io, via, command, data)
    ensures command == None ==> Request(io, via, command, data) == Err(TypeError)
    ensures command == None && Common.Request(io, via, command, data).Ok? ==> Common.Request(io, via, command, data).value.cmd == -1
  {
  }

  /** bus_obj_t of src/buses/esp32/bus.h. */
  class Bus {
    /** io_handle: the panel IO, written once the constructor has created it. */
    var ioHandle: nat
    /** trans_done: no colour transfer of this bus is outstanding. */
    var transDone: bool
    /** The driver entry points bound to the tx_param and tx_color slots. */
    var txParam: VendorTx
    var txColor: VendorTx
    /** The panel-IO transfers issued so far, oldest first. */
    var calls: seq<Transfer>
    /** The driver holds an accepted colour transfer whose completion is still to come. */
    var inFlight: bool

    /** A transfer in flight has not completed yet. */
    ghost predicate Valid()
      reads this
    {
      inFlight ==> !transDone
    }

    /** A freshly allocated bus as i80bus_make_new prepares it: idle, slots bound to the driver. */
    constructor ()
      ensures Valid() && transDone && !inFlight
      ensures txParam == TxParam && txColor == TxColor
      ensures ioHandle == 0 && calls == []
    {
      ioHandle := 0;
      transDone := true;
      txParam := TxParam;
      txColor := TxColor;
      calls := [];
      inFlight := false;
    }

    /** color_trans_done: the driver signals completion of this bus's colour transfer. */
    method ColorTransDone() returns (yieldNeeded: bool)
      requires Valid() && inFlight
      modifies this`transDone, this`inFlight
      ensures Valid() && transDone && !inFlight && !yieldNeeded
    {
      transDone := true;
      inFlight := false;
      yieldNeeded := false;
    }

    /**
     * send(command, data=None): one transfer through the tx_param slot; a nonzero status
     * raises OSError after the transfer was handed over. `args` are the arguments after self.
     */
    method Send(args: seq<Obj>, status: int) returns (r: Outcome)
      requires |args| >= 1
      modifies this`calls
      ensures match Request(ioHandle, txParam, args[0], Common.Arg(args, 1))
        case Err(e) => r == Raised(e) && calls == old(calls)
        case Ok(t) =>
          calls == old(calls) + [t]
          && r == (if status == ESP_OK then Done else Raised(OSError(SendMsg)))
    {
      var req := Request(ioHandle, txParam, args[0], Common.Arg(args, 1));
      if req.Err? {
        return Raised(req.error);
      }
      calls := calls + [req.value];
      if status != ESP_OK {
        return Raised(OSError(SendMsg));
      }
      r := Done;
    }

    /**
     * The wait of send_color: polls trans_done until it is set. The completion of the
     * transfer in flight arrives after `polls` polls; with trans_done clear and nothing in
     * flight no completion is coming and the wait never ends. `done` says whether it ends.
     */
    method WaitDone(polls: nat) returns (done: bool)
      requires Valid()
      modifies this`transDone, this`inFlight
      ensures Valid() && !inFlight && transDone == done
      ensures done <==> old(transDone) || old(inFlight)
    {
      var n := 0;
      while !transDone && n <= polls
        invariant Valid()
        invariant n <= polls + 1
        invariant n == polls + 1 && old(inFlight) ==> transDone
        invariant !old(transDone) && !old(inFlight) ==> !transDone && !inFlight
        invariant transDone ==> !inFlight
        invariant old(inFlight) && !transDone ==> inFlight
        invariant old(transDone) ==> transDone
        decreases polls + 1 - n
      {
        if n == polls && inFlight {
          var _ := ColorTransDone();
        }
        n := n + 1;
      }
      done := transDone;
    }

    /**
     * send_color(command, data=None): wait for the previous colour transfer, clear
     * trans_done, issue through the tx_color slot; a refused transfer raises OSError with
     * trans_done left clear, an accepted one is waited for until it completes. With
     * trans_done clear and nothing in flight the first wait never ends: the call is `Hung`.
     */
    method SendColor(args: seq<Obj>, status: int, pollsBefore: nat, pollsAfter: nat) returns (r: Outcome)
      requires |args| >= 1 && Valid()
      modifies this`calls, this`transDone, this`inFlight
      ensures Valid()
      ensures match Request(ioHandle, txColor, args[0], Common.Arg(args, 1))
        case Err(e) =>
          r == Raised(e) && calls == old(calls)
          && transDone == old(transDone) && inFlight == old(inFlight)
        case Ok(t) =>
          !inFlight
          && (!old(transDone) && !old(inFlight) ==> r == Hung && calls == old(calls) && !transDone)
          && (old(transDone) || old(inFlight) ==>
                calls == old(calls) + [t]
                && (status == ESP_OK ==> r == Done && transDone)
                && (status != ESP_OK ==> r == Raised(OSError(ColorMsg)) && !transDone))
    {
      var req := Request(ioHandle, txColor, args[0], Common.Arg(args, 1));
      if req.Err? {
        return Raised(req.error);
      }
      var done := WaitDone(pollsBefore);
      if !done {
        return Hung;
      }
      transDone := false;
      calls := calls + [req.value];
      if status != ESP_OK {
        return Raised(OSError(ColorMsg));
      }
      inFlight := true;
      done := WaitDone(pollsAfter);
      r := Done;
    }

    /**
     * send_color as evidently intended: a refused transfer never starts, so trans_done is
     * set again before raising and the next send_color can proceed.
     */
    method SendColorRestoring(args: seq<Obj>, status: int, pollsBefore: nat, pollsAfter: nat) returns (r: Outcome)
      requires |args| >= 1 && Valid()
      modifies this`calls, this`transDone, this`inFlight
      ensures Valid()
      ensures match Request(ioHandle, txColor, args[0], Common.Arg(args, 1))
        case Err(e) =>
          r == Raised(e) && calls == old(calls)
          && transDone == old(transDone) && inFlight == old(inFlight)
        case Ok(t) =>
          !inFlight
          && (!old(transDone) && !old(inFlight) ==> r == Hung && calls == old(calls) && !transDone)
          && (old(transDone) || old(inFlight) ==>
                calls == old(calls) + [t] && transDone
                && r == (if status == ESP_OK then Done else Raised(OSError(ColorMsg))))
    {
      var req := Request(ioHandle, txColor, args[0], Common.Arg(args, 1));
      if req.Err? {
        return Raised(req.error);
      }
      var done := WaitDone(pollsBefore);
      if !done {
        return Hung;
      }
      transDone := false;
      calls := calls + [req.value];
      if status != ESP_OK {
        transDone := true;
        return Raised(OSError(ColorMsg));
      }
      inFlight := true;
      done := WaitDone(pollsAfter);
      r := Done;
    }
  }

  /**
   * The failure of send_color as written: after one refused colour transfer the bus has
   * trans_done clear and nothing in flight, so the next send_color never returns, however
   * long it polls.
   */
  method RefusedColorTransferStalls(status: int, polls: nat) returns (r: Outcome, nextCanStart: bool, second: Outcome)
    requires status != ESP_OK
    ensures r == Raised(OSError(ColorMsg))
    ensures !nextCanStart
    ensures second == Hung
  {
    var bus := new Bus();
    r := bus.SendColor([Int(0x2C), Buffer([0x12, 0x34], false)], status, 0, 0);
    nextCanStart := bus.transDone;
    second := bus.SendColor([Int(0x2C), Buffer([0x56, 0x78], false)], ESP_OK, polls, polls);
  }

  /**
   * The same refusal with the restoring send_color: trans_done is set again, and a
   * following send_color completes.
   */
  method RefusedColorTransferRecovers() returns (first: Outcome, nextCanStart: bool, second: Outcome)
    ensures first == Raised(OSError(ColorMsg))
    ensures nextCanStart
    ensures second == Done
  {
    var bus := new Bus();
    first := bus.SendColorRestoring([Int(0x2C), Buffer([0x12, 0x34], false)], 1, 0, 0);
    nextCanStart := bus.transDone;
    second := bus.SendColorRestoring([Int(0x2C), Buffer([0x12, 0x34], false)], ESP_OK, 0, 0);
  }
}

=== FILE: byteswap.dfy ===
/**
 * The byteswap module (src/byteswap/byteswap.c): an in-place 16-bit endianness flip of a
 * pixel buffer. The buffer is viewed as uint16_t elements and each one is replaced by
 * `(x >> 8) | (x << 8)`; on the bytes this exchanges bytes 2i and 2i+1 of every pair.
 *
 * The byte-level specification (Partner, SwapPairs) is shared with the unchecked variant
 * swap_bytes of src/common.c, which lives in module Common.
 */
module ByteSwap {
  import opened MicroPython

  const OddLengthMsg: string := "Buffer length must be even (16-bit aligned)."

  /**
   * The index whose byte lands at index k when every complete pair of an n-byte buffer is
   * exchanged; a trailing odd byte stays where it is.
   */
  function Partner(n: nat, k: nat): (j: nat)
    requires k < n
    ensures j < n
  {
    if k % 2 == 1 then k - 1 else if k + 1 < n then k + 1 else k
  }

  /** The buffer with bytes 2i and 2i+1 exchanged for every complete pair. */
  function SwapPairs(s: seq<bv8>): (r: seq<bv8>)
    ensures |r| == |s|
  {
    if |s| < 2 then s else [s[1], s[0]] + SwapPairs(s[2..])
  }

  /** Every byte of the result is its partner's old byte, and nothing else moves. */
  lemma {:induction false} SwapPairsAt(s: seq<bv8>, k: nat)
    requires k < |s|
    ensures SwapPairs(s)[k] == s[Partner(|s|, k)]
  {
    if |s| >= 2 && k >= 2 {
      SwapPairsAt(s[2..], k - 2);
      assert Partner(|s| - 2, k - 2) + 2 == Partner(|s|, k);
    }
  }

  /** Swapping twice restores the buffer. */
  lemma {:induction false} SwapPairsInvolutive(s: seq<bv8>)
    ensures SwapPairs(SwapPairs(s)) == s
  {
    if |s| >= 2 {
      var r := SwapPairs(s);
      assert r[0] == s[1] && r[1] == s[0];
      assert r[2..] == SwapPairs(s[2..]);
      SwapPairsInvolutive(s[2..]);
    }
  }

  /** An odd trailing byte is left where it is. */
  lemma {:induction false} SwapPairsKeepsTrailingByte(s: seq<bv8>)
    requires |s| % 2 == 1
    ensures SwapPairs(s)[|s| - 1] == s[|s| - 1]
  {
    assert Partner(|s|, |s| - 1) == |s| - 1;
    SwapPairsAt(s, |s| - 1);
  }

  /** The documented example: 12 34 56 78 becomes 34 12 78 56. */
  lemma SwapPairsExample()
    ensures SwapPairs([0x12, 0x34, 0x56, 0x78]) == [0x34, 0x12, 0x78, 0x56]
  {
  }

  /** The uint16_t held little-endian in the bytes lo, hi (the ESP32 is little-endian). */
  function Word(lo: bv8, hi: bv8): bv16 {
    ((hi as bv16) << 8) | (lo as bv16)
  }

  /** The byte stored first (lower address) for a uint16_t. */
  function Low(w: bv16): bv8 {
    (w & 0xFF) as bv8
  }

  /** The byte stored second (higher address) for a uint16_t. */
  function High(w: bv16): bv8 {
    (w >> 8) as bv8
  }

  /**
   * `(x >> 8) | (x << 8)` stored back into a uint16_t: the int-promoted value is truncated
   * to 16 bits on assignment, which bv16 arithmetic does by itself.
   */
  function Rotate8(w: bv16): bv16 {
    ((w >> 8) | (w << 8))
  }

  /** Rotating an element gives the element with its two bytes exchanged. */
  lemma RotateIsByteExchange(lo: bv8, hi: bv8)
    ensures Rotate8(Word(lo, hi)) == Word(hi, lo)
  {
  }

  /** An element's two bytes are the ones it was built from. */
  lemma BytesOfWord(lo: bv8, hi: bv8)
    ensures Low(Word(lo, hi)) == lo && High(Word(lo, hi)) == hi
  {
  }

  /** Storing the rotated element back exchanges its two bytes. */
  lemma RotateExchangesBytes(lo: bv8, hi: bv8)
    ensures Low(Rotate8(Word(lo, hi))) == hi
    ensures High(Rotate8(Word(lo, hi))) == lo
  {
    RotateIsByteExchange(lo, hi);
    BytesOfWord(hi, lo);
  }

  /**
   * Element by element: the i-th uint16_t of the swapped buffer is the rotation of the
   * i-th uint16_t of the old one, and depends on nothing else.
   */
  lemma {:induction false} SwapPairsRotatesElements(s: seq<bv8>, i: nat)
    requires 2 * i + 1 < |s|
    ensures Word(SwapPairs(s)[2 * i], SwapPairs(s)[2 * i + 1]) == Rotate8(Word(s[2 * i], s[2 * i + 1]))
  {
    var k := 2 * i;
    assert Partner(|s|, k) == k + 1 && Partner(|s|, k + 1) == k;
    SwapPairsAt(s, k);
    SwapPairsAt(s, k + 1);
    var lo, hi := SwapPairs(s)[k], SwapPairs(s)[k + 1];
    assert lo == s[k + 1] && hi == s[k];
    RotateIsByteExchange(s[k], s[k + 1]);
  }

  /**
   * func_byteswap: raise ValueError on an odd length before touching any byte; otherwise
   * rotate every uint16_t element in place.
   */
  method ByteSwap(buf: array<bv8>) returns (r: Outcome)
    modifies buf
    ensures buf.Length % 2 == 1 ==> r == Raised(ValueError(OddLengthMsg)) && buf[..] == old(buf[..])
    ensures buf.Length % 2 == 0 ==> r == Done && buf[..] == SwapPairs(old(buf[..]))
  {
    if buf.Length % 2 != 0 {
      return Raised(ValueError(OddLengthMsg));
    }
    var numElements := buf.Length / 2;
    for i := 0 to numElements
      invariant forall k :: 0 <= k < 2 * i ==> buf[k] == old(buf[Partner(buf.Length, k)])
      invariant forall k :: 2 * i <= k < buf.Length ==> buf[k] == old(buf[k])
    {
      var w := Rotate8(Word(buf[2 * i], buf[2 * i + 1]));
      RotateExchangesBytes(buf[2 * i], buf[2 * i + 1]);
      buf[2 * i], buf[2 * i + 1] := Low(w), High(w);
    }
    r := Done;
    ghost var was := old(buf[..]);
    forall k | 0 <= k < buf.Length
      ensures buf[..][k] == SwapPairs(was)[k]
    {
      SwapPairsAt(was, k);
    }
  }
}

=== FILE: color_trans_flag.dfy ===
module ColorTransFlag {
  import opened EspLcd

  /**
   * The module-level `color_trans_active` flag of the fire-and-forget revisions, shared by
   * every bus of its file, together with the driver state the completion depends on.
   */
  class Flag {
    /** A colour transfer has been issued and its completion has not yet been signalled. */
    var active: bool
    /**
     * Driver state, not a C variable: the bus whose accepted colour transfer the driver still
     * holds, and to which (as the panel IO's user_ctx) it will deliver the completion; null
     * when the driver holds none.
     */
    var holder: object?

    /** The flag's static initialiser; the driver holds no transfer yet. */
    constructor ()
      ensures !active && holder == null
    {
      active := false;
      holder := null;
    }

    /**
     * The flag is set but the driver holds no transfer: no completion will ever clear it, so
     * every busy-wait on it spins forever.
     */
    predicate Stranded()
      reads this
    {
      active && holder == null
    }

    /**
     * `color_trans_active = true` followed by esp_lcd_panel_io_tx_color, whose status is
     * discarded: the flag is set whatever the driver answers, and the driver keeps (and will
     * complete, for `bus`) only a transfer it accepted.
     */
    method Issue(bus: object, status: int)
      modifies this
      ensures active
      ensures holder == (if status == ESP_OK then bus else null)
      ensures Stranded() <==> status != ESP_OK
    {
      active := true;
      holder := if status == ESP_OK then bus else null;
    }

    /**
     * Corrected issue: the flag stays set only while the driver holds the transfer, so a
     * refused transfer never strands it.
     */
    method IssueChecked(bus: object, status: int)
      modifies this
      ensures active <==> status == ESP_OK
      ensures holder == (if status == ESP_OK then bus else null)
      ensures !Stranded()
    {
      active := status == ESP_OK;
      holder := if status == ESP_OK then bus else null;
    }
  }
}

=== FILE: common.dfy ===
/**
 * src/common.c: the fire-and-forget revision of the transfer handshake. A module-level
 * flag guards the single colour transfer in flight; `send_color` waits for it to clear,
 * sets it and issues the transfer; the completion interrupt runs the registered callback
 * and clears it. The file also holds `swap_bytes`, the unchecked byte swap.
 *
 * The bus object's own constructor is not part of this file; the model's constructor
 * takes the starting callback slot as a parameter.
 */
module Common {
  import opened MicroPython
  import opened EspLcd
  import opened ByteSwap
  import opened ColorTransFlag

  /** The ValueError message of register_callback, the same in every fire-and-forget revision. */
  const CallbackMsg: string := "callback must be a callable object or None"

  /** The callbacks one completion event runs: the registered one, if it is callable. */
  function Fired(callback: Obj): (r: seq<Obj>)
    ensures |r| <= 1
    ensures r == [callback] <==> IsCallable(callback)
  {
    if IsCallable(callback) then [callback] else []
  }

  /** Positional argument i, with a missing argument read as None (`n_args > i`). */
  function Arg(args: seq<Obj>, i: nat): Obj {
    if i < |args| then args[i] else None
  }

  /**
   * The transfer `send` and `send_color` hand to the driver: command -1 when the command
   * is None, a NULL buffer of length 0 when the data is None; the command is converted
   * before the data, so a bad command is the error reported.
   */
  function Request(io: nat, via: VendorTx, command: Obj, data: Obj): (r: Result<Transfer>)
    ensures r.Ok? <==> (command == None || GetInt(command).Ok?) && (data == None || GetBuffer(data, false).Ok?)
    ensures r.Err? ==> r.error == TypeError
    ensures r.Ok? ==> r.value.io == io && r.value.via == via
    ensures r.Ok? ==> r.value.cmd == (if command == None then -1 else GetInt(command).value)
    ensures r.Ok? ==> r.value.data == (if data == None then NullBuf else Bytes(data.bytes))
    ensures r.Ok? && data == None ==> Len(r.value.data) == 0
  {
    var cmd := if command == None then Ok(-1) else GetInt(command);
    if cmd.Err? then Err(cmd.error)
    else if data == None then Ok(Transfer(io, via, cmd.value, NullBuf))
    else
      var buf := GetBuffer(data, false);
      if buf.Err? then Err(buf.error) else Ok(Transfer(io, via, cmd.value, Bytes(buf.value)))
  }

  /** A bus object of the fire-and-forget revision (bus_obj_t, as far as these functions use it). */
  class Bus {
    /** The file's color_trans_active flag, shared with every other bus object. */
    const flag: Flag
    /** io_handle: the panel IO this bus talks to. */
    const ioHandle: nat
    /** The callback slot. */
    var callback: Obj
    /** The panel-IO transfers issued so far, oldest first. */
    var calls: seq<Transfer>
    /** The callbacks the completion interrupt has run so far, oldest first. */
    var invoked: seq<Obj>

    /** A bus object as its (unmodelled) constructor leaves it. */
    constructor (flag: Flag, ioHandle: nat, callback: Obj)
      ensures this.flag == flag && this.ioHandle == ioHandle && this.callback == callback
      ensures calls == [] && invoked == []
    {
      this.flag := flag;
      this.ioHandle := ioHandle;
      this.callback := callback;
      calls := [];
      invoked := [];
    }

    /**
     * color_trans_done, the completion interrupt for this bus's colour transfer: runs the
     * callback if it is callable, clears the shared flag, and asks for no context switch.
     * The driver delivers it only for a transfer it accepted from this bus.
     */
    method ColorTransDone() returns (yieldNeeded: bool)
      requires flag.holder == this
      modifies this`invoked, flag
      ensures !flag.active && flag.holder == null && !yieldNeeded
      ensures invoked == old(invoked) + Fired(callback)
    {
      if IsCallable(callback) {
        invoked := invoked + [callback];
      }
      flag.active := false;
      flag.holder := null;
      yieldNeeded := false;
    }

    /**
     * send(command=None, data=None): one tx_param transfer; its status is ignored.
     * `args` are the arguments after self.
     */
    method Send(args: seq<Obj>) returns (r: Outcome)
      modifies this`calls
      ensures match Request(ioHandle, TxParam, Arg(args, 0), Arg(args, 1))
        case Ok(t) => r == Done && calls == old(calls) + [t]
        case Err(e) => r == Raised(e) && calls == old(calls)
    {
      var req := Request(ioHandle, TxParam, Arg(args, 0), Arg(args, 1));
      if req.Err? {
        return Raised(req.error);
      }
      calls := calls + [req.value];
      r := Done;
    }

    /**
     * send_color(command, data): both arguments are read without a count check. Busy-waits
     * while the shared flag is set, then sets it and issues one tx_color transfer whose
     * status (an input here) is discarded.
     *
     * The wait ends only through the completion of the transfer the driver holds, which
     * goes to `owner` (possibly this bus) and arrives after `polls` polls. The loop observes
     * `polls + 1` polls; a flag still set after them is stranded (the driver holds nothing),
     * so the wait spins forever and the call is `Hung`.
     */
    method SendColor(args: seq<Obj>, status: int, owner: Bus, polls: nat) returns (r: Outcome)
      requires |args| >= 2
      requires owner.flag == flag
      requires flag.holder != null ==> flag.holder == owner
      modifies this`calls, flag, owner`invoked
      ensures match Request(ioHandle, TxColor, args[0], args[1])
        case Err(e) =>
          r == Raised(e) && calls == old(calls) && owner.invoked == old(owner.invoked)
          && flag.active == old(flag.active) && flag.holder == old(flag.holder)
        case Ok(t) =>
          (old(flag.Stranded()) ==>
            r == Hung && calls == old(calls) && owner.invoked == old(owner.invoked) && flag.Stranded())
          && (!old(flag.Stranded()) ==>
            r == Done && calls == old(calls) + [t]
            && owner.invoked == old(owner.invoked) + (if old(flag.active) then Fired(owner.callback) else [])
            && flag.active && flag.holder == (if status == ESP_OK then this else null))
    {
      var req := Request(ioHandle, TxColor, args[0], args[1]);
      if req.Err? {
        return Raised(req.error);
      }
      ghost var wasActive := flag.active;
      ghost var stranded := flag.Stranded();
      var n := 0;
      while flag.active && n <= polls
        invariant n <= polls + 1
        invariant calls == old(calls)
        invariant stranded ==> flag.Stranded() && owner.invoked == old(owner.invoked)
        invariant !stranded && n == polls + 1 ==> !flag.active
        invariant !stranded && flag.active ==> flag.holder == owner
        invariant !wasActive ==> !flag.active
        invariant owner.invoked == old(owner.invoked) + (if wasActive && !flag.active then Fired(owner.callback) else [])
        decreases polls + 1 - n
      {
        if n == polls && flag.holder == owner {
          var _ := owner.ColorTransDone();
        }
        n := n + 1;
      }
      if flag.active {
        return Hung;
      }
      flag.Issue(this, status);
      calls := calls + [req.value];
      r := Done;
    }

    /** register_callback(callback): accepts a callable or None, and nothing else. */
    method RegisterCallback(cb: Obj) returns (r: Outcome)
      modifies this`callback
      ensures IsCallable(cb) || cb == None ==> r == Done && callback == cb
      ensures !IsCallable(cb) && cb != None ==> r == Raised(ValueError(CallbackMsg)) && callback == old(callback)
    {
      if !IsCallable(cb) && cb != None {
        return Raised(ValueError(CallbackMsg));
      }
      callback := cb;
      r := Done;
    }
  }

  /**
   * swap_bytes(data): rotates each of the len/2 uint16_t elements of the buffer; unlike
   * byteswap there is no length check, and an odd trailing byte is left as it was.
   */
  method SwapBytes(buf: array<bv8>)
    modifies buf
    ensures buf[..] == SwapPairs(old(buf[..]))
  {
    var len := buf.Length / 2;
    for i := 0 to len
      invariant forall k :: 0 <= k < 2 * i ==> buf[k] == old(buf[Partner(buf.Length, k)])
      invariant forall k :: 2 * i <= k < buf.Length ==> buf[k] == old(buf[k])
    {
      var w := Rotate8(Word(buf[2 * i], buf[2 * i + 1]));
      RotateExchangesBytes(buf[2 * i], buf[2 * i + 1]);
      buf[2 * i], buf[2 * i + 1] := Low(w), High(w);
    }
    ghost var was := old(buf[..]);
    forall k | 0 <= k < buf.Length
      ensures buf[..][k] == SwapPairs(was)[k]
    {
      SwapPairsAt(was, k);
    }
  }

  /**
   * A colour transfer the driver refuses strands the shared flag: the next send_color, on
   * this bus or any other of the file, never returns, however long it polls.
   */
  method RefusedColorTransferStalls(status: int, polls: nat) returns (first: Outcome, second: Outcome)
    requires status != ESP_OK
    ensures first == Done && second == Hung
  {
    var flag := new Flag();
    var a := new Bus(flag, 1, None);
    var b := new Bus(flag, 2, None);
    first := a.SendColor([Int(0x2C), Buffer([0x12, 0x34], false)], status, a, 0);
    second := b.SendColor([Int(0x2C), Buffer([0x56, 0x78], false)], ESP_OK, b, polls);
  }
}

=== FILE: esp32_i80bus.dfy ===
/**
 * src/buses/esp32/i80bus.c: the i80 (Intel 8080 parallel) bus constructor of the
 * per-instance revision. It prepares the bus object (slots bound to the driver,
 * trans_done set), validates the data pins, creates the i80 bus and then its panel IO
 * with color_trans_done as completion handler; a failure of either raises OSError.
 */
module Esp32I80Bus {
  import opened MicroPython
  import opened EspLcd
  import BusesCommon

  const DataTypeMsg: string := "I80Bus:  data must be a tuple or list"
  const WidthMsg: string := "I80Bus: data bus width must be 8 or 16"
  const PinTypeMsg: string := "I80Bus:  data pins must be integers"
  const BusMsg: string := "Failed to create I80Bus.  You must hard reset the board to release the bus."
  const IoMsg: string := "Failed to create I80 panel IO"

  /** Number of entries in data_gpio_nums of esp_lcd_i80_bus_config_t. */
  const MaxDataPins: nat := 16

  /** The constructor's arguments, after parsing (`data` is passed on as an object). */
  datatype Args = Args(dc: int, cs: int, wr: int, data: Obj, freq: int, cmdBits: int, paramBits: int)

  /** Every pin is an int object (mp_obj_is_int: a bool is not one). */
  predicate AllInts(pins: seq<Obj>) {
    forall i :: 0 <= i < |pins| ==> IsInt(pins[i])
  }

  /**
   * The data_gpio_nums block for `data`: a tuple or list of exactly 8 or 16 int pins, in
   * order, the remaining slots -1. The checks run in that order: container type, count,
   * then each pin.
   */
  function DataPins(data: Obj): (r: Result<seq<int>>)
    ensures r.Ok? <==> (data.Tuple? || data.List?) && (|data.items| == 8 || |data.items| == 16) && AllInts(data.items)
    ensures !(data.Tuple? || data.List?) ==> r == Err(ValueError(DataTypeMsg))
    ensures (data.Tuple? || data.List?) && |data.items| != 8 && |data.items| != 16 ==> r == Err(ValueError(WidthMsg))
    ensures (data.Tuple? || data.List?) && (|data.items| == 8 || |data.items| == 16) && !AllInts(data.items) ==>
      r == Err(ValueError(PinTypeMsg))
    ensures r.Ok? ==> |r.value| == MaxDataPins
    ensures r.Ok? ==> forall i :: 0 <= i < |data.items| ==> r.value[i] == data.items[i].i
    ensures r.Ok? ==> forall i :: |data.items| <= i < MaxDataPins ==> r.value[i] == -1
  {
    if !(data.Tuple? || data.List?) then Err(ValueError(DataTypeMsg))
    else if |data.items| != 8 && |data.items| != 16 then Err(ValueError(WidthMsg))
    else if !AllInts(data.items) then Err(ValueError(PinTypeMsg))
    else
      var pins := data.items;
      Ok(seq(MaxDataPins, i requires 0 <= i < MaxDataPins => if i < |pins| then pins[i].i else -1))
  }

  /**
   * The validation and the two fill loops of i80bus_make_new: every slot set to -1, then
   * slot i to pin i, raising at the first pin that is not an int.
   */
  method FillDataPins(data: Obj) returns (r: Result<seq<int>>)
    ensures r == DataPins(data)
  {
    var pins: seq<Obj>;
    if data.Tuple? {
      pins := data.items;
    } else if data.List? {
      pins := data.items;
    } else {
      return Err(ValueError(DataTypeMsg));
    }
    if |pins| != 8 && |pins| != 16 {
      return Err(ValueError(WidthMsg));
    }
    var nums := new int[MaxDataPins];
    for i := 0 to MaxDataPins
      invariant forall k :: 0 <= k < i ==> nums[k] == -1
    {
      nums[i] := -1;
    }
    for i := 0 to |pins|
      invariant forall k :: 0 <= k < i ==> IsInt(pins[k]) && nums[k] == pins[k].i
      invariant forall k :: i <= k < MaxDataPins ==> nums[k] == -1
    {
      if IsInt(pins[i]) {
        nums[i] := pins[i].i;
      } else {
        assert !IsInt(data.items[i]);
        return Err(ValueError(PinTypeMsg));
      }
    }
    assert AllInts(data.items);
    r := Ok(nums[..]);
    assert nums[..] == DataPins(data).value;
  }

  /** esp_lcd_i80_bus_config_t: default clock, one slot per data pin, bus width = pin count. */
  function BusConfig(a: Args, pins: seq<int>): (c: I80BusConfig)
    requires a.data.Tuple? || a.data.List?
    ensures c.busWidth == |a.data.items| && c.dataGpioNums == pins
    ensures c.clkSrc == ClkSrcDefault && c.dc == a.dc && c.wr == a.wr && c.maxTransferBytes == 4096
  {
    I80BusConfig(ClkSrcDefault, a.dc, a.wr, pins, |a.data.items|, 4096)
  }

  /**
   * esp_lcd_panel_io_i80_config_t: D/C high for data and when idle, low for commands, no
   * flags; completions go to color_trans_done with the new bus object as context.
   */
  function IoConfig(a: Args): (c: I80IoConfig)
    ensures c.cs == a.cs && c.pclkHz == a.freq && c.cmdBits == a.cmdBits && c.paramBits == a.paramBits
    ensures c.queueDepth == 10
    ensures c.dcLevels == DcLevels(1, 0, 0, 1)
    ensures c.flags == I80Flags(false, false, false, false, false)
    ensures c.onColorTransDone == ColorTransDoneHandler && c.userCtx == SelfCtx
  {
    I80IoConfig(a.cs, a.freq, a.cmdBits, a.paramBits, 10, DcLevels(1, 0, 0, 1),
                I80Flags(false, false, false, false, false), ColorTransDoneHandler, SelfCtx)
  }

  /**
   * i80bus_make_new: `busStatus`/`busHandle` and `ioStatus`/`ioHandle` are what the driver
   * returns; the panel IO is created on the bus just created. Nothing reaches the driver unless the pins are valid.
   */
  method MakeNew(a: Args, busStatus: int, busHandle: nat, ioStatus: int, ioHandle: nat)
    returns (r: Result<BusesCommon.Bus>, vendor: seq<VendorCall>)
    ensures DataPins(a.data).Err? ==> r == Err(DataPins(a.data).error) && vendor == []
    ensures DataPins(a.data).Ok? ==> |vendor| >= 1 && vendor[0] == NewI80Bus(BusConfig(a, DataPins(a.data).value))
    ensures DataPins(a.data).Ok? && busStatus != ESP_OK ==> r == Err(OSError(BusMsg)) && |vendor| == 1
    ensures DataPins(a.data).Ok? && busStatus == ESP_OK ==> vendor[1..] == [NewPanelIoI80(busHandle, IoConfig(a))]
    ensures DataPins(a.data).Ok? && busStatus == ESP_OK ==>
      vendor[1].i80Io.onColorTransDone == ColorTransDoneHandler && vendor[1].i80Io.userCtx == SelfCtx
    ensures DataPins(a.data).Ok? && busStatus == ESP_OK && ioStatus != ESP_OK ==> r == Err(OSError(IoMsg))
    ensures DataPins(a.data).Ok? && busStatus == ESP_OK && ioStatus == ESP_OK ==>
      r.Ok? && fresh(r.value) && r.value.Valid()
      && r.value.transDone && !r.value.inFlight
      && r.value.txParam == TxParam && r.value.txColor == TxColor
      && r.value.ioHandle == ioHandle && r.value.calls == []
  {
    var self := new BusesCommon.Bus();
    var pins := FillDataPins(a.data);
    if pins.Err? {
      return Err(pins.error), [];
    }
    vendor := [NewI80Bus(BusConfig(a, pins.value))];
    if busStatus != ESP_OK {
      return Err(OSError(BusMsg)), vendor;
    }
    vendor := vendor + [NewPanelIoI80(busHandle, IoConfig(a))];
    if ioStatus != ESP_OK {
      return Err(OSError(IoMsg)), vendor;
    }
    self.ioHandle := ioHandle;
    r := Ok(self);
  }
}

=== FILE: esp_lcd.dfy ===
/**
 * The ESP-IDF LCD driver boundary, as the bus modules see it: the configuration records
 * they fill in, the calls they make, and the status codes that come back. The driver
 * itself is not modelled; a call is recorded, and its status is an input.
 */
module EspLcd {

  /** esp_err_t value for success. */
  const ESP_OK: int := 0

  /** Pixel or parameter bytes handed to a transfer: a NULL pointer (length 0) or a buffer. */
  datatype Payload = NullBuf | Bytes(bytes: seq<bv8>)

  /** The length a transfer is given for its payload. */
  function Len(p: Payload): nat {
    match p
    case NullBuf => 0
    case Bytes(b) => |b|
  }

  /** The two panel-IO transfer entry points: esp_lcd_panel_io_tx_param and _tx_color. */
  datatype VendorTx = TxParam | TxColor

  /** One panel-IO transfer: which entry point, on which panel-IO handle, with which command. */
  datatype Transfer = Transfer(io: nat, via: VendorTx, cmd: int, data: Payload)

  /** lcd_clock_source_t values the constructors use. */
  datatype ClockSource = ClkSrcDefault | ClkSrcPll160M

  /** spi_bus_config_t */
  datatype SpiBusConfig = SpiBusConfig(
    sclk: int, mosi: int, miso: int, quadwp: int, quadhd: int, maxTransferSz: int)

  /** The on_color_trans_done handler a panel IO is given: none, or the module's color_trans_done. */
  datatype IoCallback = NoHandler | ColorTransDoneHandler

  /** The user_ctx a panel IO hands its handler: NULL, or the bus object being constructed. */
  datatype UserCtx = NullCtx | SelfCtx

  /** esp_lcd_panel_io_spi_config_t */
  datatype SpiIoConfig = SpiIoConfig(
    dc: int, cs: int, pclkHz: int, spiMode: int, cmdBits: int, paramBits: int,
    queueDepth: int, lsbFirst: bool, dcLowOnData: bool, octalMode: bool,
    onColorTransDone: IoCallback, userCtx: UserCtx)

  /** esp_lcd_i80_bus_config_t */
  datatype I80BusConfig = I80BusConfig(
    clkSrc: ClockSource, dc: int, wr: int, dataGpioNums: seq<int>, busWidth: int,
    maxTransferBytes: int)

  /** The dc_levels block of esp_lcd_panel_io_i80_config_t. */
  datatype DcLevels = DcLevels(idle: int, cmd: int, dummy: int, data: int)

  /** The flags block of esp_lcd_panel_io_i80_config_t. */
  datatype I80Flags = I80Flags(
    csActiveHigh: bool, reverseColorBits: bool, swapColorBytes: bool,
    pclkActiveNeg: bool, pclkIdleLow: bool)

  /** esp_lcd_panel_io_i80_config_t */
  datatype I80IoConfig = I80IoConfig(
    cs: int, pclkHz: int, cmdBits: int, paramBits: int, queueDepth: int,
    dcLevels: DcLevels, flags: I80Flags, onColorTransDone: IoCallback, userCtx: UserCtx)

  /** The timings block of esp_lcd_rgb_panel_config_t, with its flags. */
  datatype RgbTimings = RgbTimings(
    pclkHz: int, hRes: int, vRes: int,
    hsyncPulseWidth: int, hsyncFrontPorch: int, hsyncBackPorch: int,
    vsyncPulseWidth: int, vsyncFrontPorch: int, vsyncBackPorch: int,
    hsyncIdleLow: bool, vsyncIdleLow: bool, deIdleHigh: bool,
    pclkActiveNeg: bool, pclkIdleHigh: bool)

  /** esp_lcd_rgb_panel_config_t (its flags block is all false and is not recorded). */
  datatype RgbPanelConfig = RgbPanelConfig(
    clkSrc: ClockSource, timings: RgbTimings, dataWidth: int, bitsPerPixel: int,
    numFbs: int, sramTransAlign: int, psramTransAlign: int,
    hsync: int, vsync: int, de: int, pclk: int, disp: int, dataGpioNums: seq<int>)

  /** A call into the driver other than a panel-IO transfer. */
  datatype VendorCall =
    | SpiBusInitialize(host: int, bus: SpiBusConfig)
    | NewPanelIoSpi(host: int, spi: SpiIoConfig)
    | NewI80Bus(i80Bus: I80BusConfig)
    | NewPanelIoI80(busHandle: nat, i80Io: I80IoConfig)
    | NewRgbPanel(rgb: RgbPanelConfig)
    | PanelReset
    | PanelInit
    | GetFrameBuffer(count: nat)
    | DrawBitmap(xStart: int, yStart: int, xEnd: int, yEnd: int, pixels: seq<bv8>)
}

=== FILE: i80bus.dfy ===
/**
 * src/i80bus.c: the i80 bus constructor of the pydevices module. It copies the data pins
 * and every keyword into the new object, then creates the i80 bus and its panel IO from
 * the stored values, with color_trans_done of src/pydevices.c as completion handler. Both
 * driver calls are wrapped in ESP_ERROR_CHECK, so a failure aborts the firmware.
 */
module PyDevicesI80Bus {
  import opened MicroPython
  import opened EspLcd
  import opened ColorTransFlag
  import PyDevices

  const WidthMsg: string := "data bus width must be <= 16"

  /** Entries of the object's data_gpio_nums array. */
  const SlotCount: nat := 24

  /** The widest data bus the constructor accepts. */
  const MaxWidth: nat := 16

  /** Entries the constructor forwards to the driver's bus configuration. */
  const ForwardedPins: nat := 8

  /** The constructor's arguments, after parsing. */
  datatype Args = Args(
    data: Obj, dc: int, wr: int, rd: int, cs: int, pclk: int, busWidth: int,
    cmdBits: int, paramBits: int, dcIdle: int, dcCmd: int, dcDummy: int, dcData: int,
    csActiveHigh: bool, reverseColorBits: bool, swapColorBytes: bool,
    pclkActiveNeg: bool, pclkIdleLow: bool)

  /** The keyword defaults around the three required arguments. */
  function WithDefaults(data: Obj, dc: int, wr: int): (a: Args)
    ensures a.data == data && a.dc == dc && a.wr == wr
    ensures a.rd == -1 && a.cs == -1 && a.pclk == 10000000 && a.busWidth == 8
    ensures a.cmdBits == 8 && a.paramBits == 8
    ensures a.dcIdle == 0 && a.dcCmd == 0 && a.dcDummy == 0 && a.dcData == 1
    ensures !a.csActiveHigh && !a.reverseColorBits && !a.swapColorBytes && !a.pclkActiveNeg && !a.pclkIdleLow
  {
    Args(data, dc, wr, -1, -1, 10000000, 8, 8, 8, 0, 0, 0, 1, false, false, false, false, false)
  }

  /** The object the constructor builds (the fields it writes). */
  datatype I80Bus = I80Bus(
    ioHandle: nat, callback: Obj, busHandle: nat, dataGpioNums: seq<int>,
    dc: int, wr: int, rd: int, cs: int, pclkHz: int, busWidth: int,
    cmdBits: int, paramBits: int, dcLevels: DcLevels, flags: I80Flags)

  /**
   * The data_gpio_nums array for the tuple's pins: at most 16 of them, each converted with
   * mp_obj_get_int, in order, the remaining slots -1.
   */
  function DataSlots(pins: seq<Obj>): (r: Result<seq<int>>)
    ensures r.Ok? <==> |pins| <= MaxWidth && forall i :: 0 <= i < |pins| ==> GetInt(pins[i]).Ok?
    ensures |pins| > MaxWidth ==> r == Err(ValueError(WidthMsg))
    ensures |pins| <= MaxWidth && r.Err? ==> r.error == TypeError
    ensures r.Ok? ==> |r.value| == SlotCount
    ensures r.Ok? ==> forall i :: 0 <= i < |pins| ==> r.value[i] == GetInt(pins[i]).value
    ensures r.Ok? ==> forall i :: |pins| <= i < SlotCount ==> r.value[i] == -1
  {
    if |pins| > MaxWidth then Err(ValueError(WidthMsg))
    else if exists i :: 0 <= i < |pins| && GetInt(pins[i]).Err? then Err(TypeError)
    else Ok(seq(SlotCount, i requires 0 <= i < SlotCount => if i < |pins| then GetInt(pins[i]).value else -1))
  }

  /**
   * The length check and the two fill loops of pydevices_i80_bus_make_new: slot i gets
   * pin i, raising at the first pin that does not convert, then slots len..23 get -1.
   * `data` is read as a tuple without a type check.
   */
  method FillDataSlots(data: Obj) returns (r: Result<seq<int>>)
    requires data.Tuple?
    ensures r == DataSlots(data.items)
  {
    var t := data.items;
    if |t| > MaxWidth {
      return Err(ValueError(WidthMsg));
    }
    var nums := new int[SlotCount];
    for i := 0 to |t|
      invariant forall k :: 0 <= k < i ==> GetInt(t[k]).Ok? && nums[k] == GetInt(t[k]).value
    {
      var pin := GetInt(t[i]);
      if pin.Err? {
        return Err(pin.error);
      }
      nums[i] := pin.value;
    }
    for i := |t| to SlotCount
      invariant forall k :: 0 <= k < |t| ==> nums[k] == GetInt(t[k]).value
      invariant forall k :: |t| <= k < i ==> nums[k] == -1
    {
      nums[i] := -1;
    }
    r := Ok(nums[..]);
    assert nums[..] == DataSlots(t).value;
  }

  /**
   * esp_lcd_i80_bus_config_t as built from the stored object: PLL160M clock, only the
   * first eight slots, and a bus width fixed at 8 whatever the object holds.
   */
  function BusConfig(self: I80Bus): (c: I80BusConfig)
    requires |self.dataGpioNums| == SlotCount
    ensures |c.dataGpioNums| == ForwardedPins
    ensures forall i :: 0 <= i < ForwardedPins ==> c.dataGpioNums[i] == self.dataGpioNums[i]
    ensures c.busWidth == 8 && c.clkSrc == ClkSrcPll160M && c.maxTransferBytes == 0
    ensures c.dc == self.dc && c.wr == self.wr
  {
    I80BusConfig(ClkSrcPll160M, self.dc, self.wr, self.dataGpioNums[..ForwardedPins], 8, 0)
  }

  /**
   * esp_lcd_panel_io_i80_config_t: the stored values, ten queued transfers; completions go
   * to color_trans_done of src/pydevices.c with the new bus object as context.
   */
  function IoConfig(self: I80Bus): (c: I80IoConfig)
    ensures c.cs == self.cs && c.pclkHz == self.pclkHz
    ensures c.cmdBits == self.cmdBits && c.paramBits == self.paramBits
    ensures c.dcLevels == self.dcLevels && c.flags == self.flags
    ensures c.queueDepth == 10
    ensures c.onColorTransDone == ColorTransDoneHandler && c.userCtx == SelfCtx
  {
    I80IoConfig(self.cs, self.pclkHz, self.cmdBits, self.paramBits, 10, self.dcLevels, self.flags,
                ColorTransDoneHandler, SelfCtx)
  }

  /**
   * The object as the constructor has filled it in before the first driver call: the data
   * slots and every keyword stored, with no handles and an unwritten callback slot.
   */
  function Stored(a: Args, slots: seq<int>): (self: I80Bus)
    ensures self.dataGpioNums == slots && self.busWidth == a.busWidth
    ensures self.ioHandle == 0 && self.busHandle == 0 && self.callback == Null
    ensures self.dc == a.dc && self.wr == a.wr && self.rd == a.rd && self.cs == a.cs
    ensures self.pclkHz == a.pclk && self.cmdBits == a.cmdBits && self.paramBits == a.paramBits
    ensures self.dcLevels == DcLevels(a.dcIdle, a.dcCmd, a.dcDummy, a.dcData)
    ensures self.flags == I80Flags(a.csActiveHigh, a.reverseColorBits, a.swapColorBytes, a.pclkActiveNeg, a.pclkIdleLow)
  {
    I80Bus(0, Null, 0, slots, a.dc, a.wr, a.rd, a.cs, a.pclk, a.busWidth, a.cmdBits, a.paramBits,
           DcLevels(a.dcIdle, a.dcCmd, a.dcDummy, a.dcData),
           I80Flags(a.csActiveHigh, a.reverseColorBits, a.swapColorBytes, a.pclkActiveNeg, a.pclkIdleLow))
  }

  /**
   * pydevices_i80_bus_make_new: `busStatus`/`busHandle` and `ioStatus`/`ioHandle` are what
   * the driver returns. The object's bus_width is first the pin count and then the
   * keyword's value, which is what it keeps; the callback slot is never written.
   */
  method MakeNew(a: Args, busStatus: int, busHandle: nat, ioStatus: int, ioHandle: nat)
    returns (r: Result<I80Bus>, vendor: seq<VendorCall>)
    requires a.data.Tuple?
    ensures DataSlots(a.data.items).Err? ==> r == Err(DataSlots(a.data.items).error) && vendor == []
    ensures r.Ok? <==> DataSlots(a.data.items).Ok? && busStatus == ESP_OK && ioStatus == ESP_OK
    ensures r.Ok? ==>
      var self := r.value;
      self.dataGpioNums == DataSlots(a.data.items).value
      && self.busWidth == a.busWidth && self.ioHandle == ioHandle && self.busHandle == busHandle
      && self.callback == Null
      && self.dc == a.dc && self.wr == a.wr && self.rd == a.rd && self.cs == a.cs
      && self.pclkHz == a.pclk && self.cmdBits == a.cmdBits && self.paramBits == a.paramBits
      && self.dcLevels == DcLevels(a.dcIdle, a.dcCmd, a.dcDummy, a.dcData)
      && self.flags == I80Flags(a.csActiveHigh, a.reverseColorBits, a.swapColorBytes, a.pclkActiveNeg, a.pclkIdleLow)
      && vendor == [NewI80Bus(BusConfig(self)), NewPanelIoI80(self.busHandle, IoConfig(self))]
    ensures DataSlots(a.data.items).Ok? && r.Err? ==>
      r == Err(Abort) && 1 <= |vendor| <= 2 && vendor[0].NewI80Bus? && (busStatus != ESP_OK <==> |vendor| == 1)
    ensures DataSlots(a.data.items).Ok? ==>
      var stored := Stored(a, DataSlots(a.data.items).value);
      vendor == [NewI80Bus(BusConfig(stored))] + (if busStatus == ESP_OK then [NewPanelIoI80(busHandle, IoConfig(stored))] else [])
  {
    var slots := FillDataSlots(a.data);
    if slots.Err? {
      return Err(slots.error), [];
    }
    var self := I80Bus(0, Null, 0, slots.value, 0, 0, 0, 0, 0, |a.data.items|, 0, 0,
                       DcLevels(0, 0, 0, 0), I80Flags(false, false, false, false, false));
    self := self.(dc := a.dc, wr := a.wr, rd := a.rd, cs := a.cs, pclkHz := a.pclk);
    self := self.(busWidth := a.busWidth, cmdBits := a.cmdBits, paramBits := a.paramBits);
    self := self.(dcLevels := DcLevels(a.dcIdle, a.dcCmd, a.dcDummy, a.dcData));
    self := self.(flags := I80Flags(a.csActiveHigh, a.reverseColorBits, a.swapColorBytes, a.pclkActiveNeg, a.pclkIdleLow));
    vendor := [NewI80Bus(BusConfig(self))];
    if busStatus != ESP_OK {
      return Err(Abort), vendor;
    }
    self := self.(busHandle := busHandle);
    vendor := vendor + [NewPanelIoI80(self.busHandle, IoConfig(self))];
    if ioStatus != ESP_OK {
      return Err(Abort), vendor;
    }
    self := self.(ioHandle := ioHandle);
    r := Ok(self);
  }

  /**
   * A 16-pin bus: all sixteen pins are stored, but the driver is configured for an 8-bit
   * bus on the first eight of them.
   */
  lemma {:induction false} SixteenPinsConfigureEightBitBus(pins: seq<Obj>, self: I80Bus)
    requires |pins| == MaxWidth && DataSlots(pins).Ok? && self.dataGpioNums == DataSlots(pins).value
    ensures BusConfig(self).busWidth == 8
    ensures BusConfig(self).dataGpioNums == seq(ForwardedPins, i requires 0 <= i < ForwardedPins => GetInt(pins[i]).value)
    ensures self.dataGpioNums[ForwardedPins..MaxWidth] == seq(MaxWidth - ForwardedPins, i requires 0 <= i < MaxWidth - ForwardedPins => GetInt(pins[ForwardedPins + i]).value)
  {
    var c := BusConfig(self);
    assert forall i :: 0 <= i < ForwardedPins ==> c.dataGpioNums[i] == GetInt(pins[i]).value;
  }

  /**
   * One trans_color on a device with panel-IO handle `ioHandle` and callback slot
   * `callback`, followed by the completion interrupt of src/pydevices.c, as written
   * (`guarded` false) or guarded by mp_obj_is_callable (`guarded` true): the objects the
   * completion calls.
   */
  method ColorCycle(ioHandle: nat, callback: Obj, guarded: bool) returns (called: seq<Obj>)
    ensures !guarded ==> called == (if callback != None then [callback] else [])
    ensures guarded ==> called == (if IsCallable(callback) then [callback] else [])
  {
    var flag := new Flag();
    var device := new PyDevices.Device(flag, ioHandle, callback);
    var _ := device.TransColor(Int(0x2C), Buffer([0x12, 0x34], false), ESP_OK, device, 0);
    if guarded {
      var _ := device.ColorTransDoneGuarded();
    } else {
      var _ := device.ColorTransDone();
    }
    called := device.invoked;
  }

  /**
   * The completion callback of src/pydevices.c on a new i80 bus, built from any arguments
   * the constructor accepts, that never had a callback registered: the interrupt calls the
   * MP_OBJ_NULL slot, which is not callable.
   */
  method UnregisteredCallbackIsCalled(a: Args, busHandle: nat, ioHandle: nat) returns (called: seq<Obj>)
    requires a.data.Tuple? && DataSlots(a.data.items).Ok?
    ensures called == [Null] && !IsCallable(called[0])
  {
    var made, _ := MakeNew(a, ESP_OK, busHandle, ESP_OK, ioHandle);
    called := ColorCycle(made.value.ioHandle, made.value.callback, false);
  }

  /** The same sequence with the guarded completion: nothing is called. */
  method UnregisteredCallbackIsSkipped(a: Args, busHandle: nat, ioHandle: nat) returns (called: seq<Obj>)
    requires a.data.Tuple? && DataSlots(a.data.items).Ok?
    ensures called == []
  {
    var made, _ := MakeNew(a, ESP_OK, busHandle, ESP_OK, ioHandle);
    called := ColorCycle(made.value.ioHandle, made.value.callback, true);
  }
}

=== FILE: micropython.dfy ===
/**
 * The part of the MicroPython runtime that the bus modules lean on: the objects they
 * receive, the exceptions they raise, and the conversions they call
 * (mp_obj_get_int, mp_obj_is_int, mp_get_buffer_raise, mp_obj_get_array,
 * mp_obj_is_callable).
 */
module MicroPython {

  /** An interpreter object, as far as the bus modules can tell objects apart. */
  datatype Obj =
    | Null                                   // MP_OBJ_NULL: a slot that was never written
    | None                                   // mp_const_none
    | Bool(b: bool)
    | Int(i: int)
    | Tuple(items: seq<Obj>)
    | List(items: seq<Obj>)
    | Buffer(bytes: seq<bv8>, writable: bool) // bytes, bytearray, memoryview, array
    | Function(id: nat)                      // anything with a call slot
    | Other(id: nat)                         // any other object

  /** The exception a call raises; ESP_ERROR_CHECK failures abort the firmware. */
  datatype Error =
    | ValueError(msg: string)
    | TypeError
    | OSError(msg: string)
    | Abort

  datatype Result<T> = Ok(value: T) | Err(error: Error)

  /**
   * What a call that returns None does: completes, raises, or never returns because a
   * busy-wait it entered has no completion coming (the flag it polls is never cleared).
   */
  datatype Outcome = Done | Raised(error: Error) | Hung

  /** mp_obj_is_callable */
  predicate IsCallable(o: Obj) {
    o.Function?
  }

  /** mp_obj_is_int: true only for int objects (a bool is not one). */
  predicate IsInt(o: Obj) {
    o.Int?
  }

  /** mp_obj_get_int: ints and bools convert, anything else raises TypeError. */
  function GetInt(o: Obj): (r: Result<int>)
    ensures r.Ok? <==> o.Int? || o.Bool?
    ensures o.Int? ==> r == Ok(o.i)
    ensures o.Bool? ==> r == Ok(if o.b then 1 else 0)
    ensures r.Err? ==> r.error == TypeError
  {
    match o
    case Int(i) => Ok(i)
    case Bool(b) => Ok(if b then 1 else 0)
    case _ => Err(TypeError)
  }

  /**
   * mp_get_buffer_raise: the bytes of an object that supports the buffer protocol;
   * a request for write access also needs a writable buffer.
   */
  function GetBuffer(o: Obj, write: bool): (r: Result<seq<bv8>>)
    ensures r.Ok? <==> o.Buffer? && (write ==> o.writable)
    ensures r.Ok? ==> r.value == o.bytes
    ensures r.Err? ==> r.error == TypeError
  {
    if o.Buffer? && (!write || o.writable) then Ok(o.bytes) else Err(TypeError)
  }

  /** mp_obj_get_array: the items of a tuple or a list, TypeError otherwise. */
  function GetArray(o: Obj): (r: Result<seq<Obj>>)
    ensures r.Ok? <==> o.Tuple? || o.List?
    ensures r.Ok? ==> r.value == o.items
    ensures r.Err? ==> r.error == TypeError
  {
    if o.Tuple? || o.List? then Ok(o.items) else Err(TypeError)
  }
}

=== FILE: pydevices.dfy ===
/**
 * src/pydevices.c: the methods of the pydevices bus types, with the fire-and-forget
 * handshake on the file's own module-level flag. The bus object is reached through its
 * io_handle and callback fields only.
 */
module PyDevices {
  import opened MicroPython
  import opened EspLcd
  import opened ColorTransFlag
  import Common
  import BusUnion

  /** A pydevices bus object, as far as these methods use it. */
  class Device {
    /** The file's color_trans_active flag, shared with every other device. */
    const flag: Flag
    /** io_handle: the panel IO this bus talks to. */
    const ioHandle: nat
    /** The callback slot. */
    var callback: Obj
    /** The panel-IO transfers issued so far, oldest first. */
    var calls: seq<Transfer>
    /** The objects the completion interrupt has called so far, oldest first. */
    var invoked: seq<Obj>

    /** A device as its constructor leaves it, with the given callback slot. */
    constructor (flag: Flag, ioHandle: nat, callback: Obj)
      ensures this.flag == flag && this.ioHandle == ioHandle && this.callback == callback
      ensures calls == [] && invoked == []
    {
      this.flag := flag;
      this.ioHandle := ioHandle;
      this.callback := callback;
      calls := [];
      invoked := [];
    }

    /**
     * color_trans_done as written: calls the slot whenever it is not None (also a slot that
     * was never written and holds MP_OBJ_NULL), then clears the shared flag.
     */
    method ColorTransDone() returns (yieldNeeded: bool)
      requires flag.holder == this
      modifies this`invoked, flag
      ensures !flag.active && flag.holder == null && !yieldNeeded
      ensures invoked == old(invoked) + (if callback != None then [callback] else [])
    {
      if callback != None {
        invoked := invoked + [callback];
      }
      flag.active := false;
      flag.holder := null;
      yieldNeeded := false;
    }

    /** color_trans_done as evidently intended: only a callable slot is called. */
    method ColorTransDoneGuarded() returns (yieldNeeded: bool)
      requires flag.holder == this
      modifies this`invoked, flag
      ensures !flag.active && flag.holder == null && !yieldNeeded
      ensures invoked == old(invoked) + Common.Fired(callback)
      ensures (forall i :: 0 <= i < old(|invoked|) ==> IsCallable(invoked[i])) ==>
              forall i :: 0 <= i < |invoked| ==> IsCallable(invoked[i])
    {
      if IsCallable(callback) {
        invoked := invoked + [callback];
      }
      flag.active := false;
      flag.holder := null;
      yieldNeeded := false;
    }

    /** pydevices_send(command, data): the command alone, then the data with command 0. */
    method Send(command: Obj, data: Obj) returns (r: Outcome)
      modifies this`calls
      ensures calls == old(calls) + BusUnion.SendSequence(ioHandle, command, data).transfers
      ensures r == BusUnion.SendSequence(ioHandle, command, data).outcome
    {
      if command != None {
        var cmd := GetInt(command);
        if cmd.Err? {
          return Raised(cmd.error);
        }
        calls := calls + [Transfer(ioHandle, TxParam, cmd.value, NullBuf)];
      }
      if data != None {
        var buf := GetBuffer(data, false);
        if buf.Err? {
          return Raised(buf.error);
        }
        calls := calls + [Transfer(ioHandle, TxParam, 0, Bytes(buf.value))];
      }
      r := Done;
    }

    /**
     * pydevices_trans_color(lcd_cmd, color): converts both, busy-waits while the shared
     * flag is set, sets it and issues one tx_color transfer whose status (an input here) is
     * discarded. The completion that ends the wait goes to `owner`, the device whose
     * transfer the driver holds, and arrives after `polls` polls; a stranded flag makes the
     * call `Hung`.
     */
    method TransColor(lcdCmd: Obj, color: Obj, status: int, owner: Device, polls: nat) returns (r: Outcome)
      requires owner.flag == flag
      requires flag.holder != null ==> flag.holder == owner
      modifies this`calls, flag, owner`invoked
      ensures match BusUnion.ColorRequest(ioHandle, lcdCmd, color)
        case Err(e) =>
          r == Raised(e) && calls == old(calls) && owner.invoked == old(owner.invoked)
          && flag.active == old(flag.active) && flag.holder == old(flag.holder)
        case Ok(t) =>
          (old(flag.Stranded()) ==>
            r == Hung && calls == old(calls) && owner.invoked == old(owner.invoked) && flag.Stranded())
          && (!old(flag.Stranded()) ==>
            r == Done && calls == old(calls) + [t]
            && owner.invoked == old(owner.invoked)
               + (if old(flag.active) && owner.callback != None then [owner.callback] else [])
            && flag.active && flag.holder == (if status == ESP_OK then this else null))
    {
      var req := BusUnion.ColorRequest(ioHandle, lcdCmd, color);
      if req.Err? {
        return Raised(req.error);
      }
      ghost var wasActive := flag.active;
      ghost var stranded := flag.Stranded();
      ghost var fired := if owner.callback != None then [owner.callback] else [];
      var n := 0;
      while flag.active && n <= polls
        invariant n <= polls + 1
        invariant calls == old(calls)
        invariant stranded ==> flag.Stranded() && owner.invoked == old(owner.invoked)
        invariant !stranded && n == polls + 1 ==> !flag.active
        invariant !stranded && flag.active ==> flag.holder == owner
        invariant !wasActive ==> !flag.active
        invariant owner.invoked == old(owner.invoked) + (if wasActive && !flag.active then fired else [])
        decreases polls + 1 - n
      {
        if n == polls && flag.holder == owner {
          var _ := owner.ColorTransDone();
        }
        n := n + 1;
      }
      if flag.active {
        return Hung;
      }
      flag.Issue(this, status);
      calls := calls + [req.value];
      r := Done;
    }

    /** pydevices_register_callback(callback): a callable or None is stored, nothing else. */
    method RegisterCallback(cb: Obj) returns (r: Outcome)
      modifies this`callback
      ensures IsCallable(cb) || cb == None ==> r == Done && callback == cb
      ensures !IsCallable(cb) && cb != None ==> r == Raised(ValueError(Common.CallbackMsg)) && callback == old(callback)
    {
      if !IsCallable(cb) && cb != None {
        return Raised(ValueError(Common.CallbackMsg));
      }
      callback := cb;
      r := Done;
    }
  }

  /**
   * A colour transfer the driver refuses strands the shared flag: the next trans_color, on
   * this device or any other of the file, never returns, however long it polls.
   */
  method RefusedColorTransferStalls(status: int, polls: nat) returns (first: Outcome, second: Outcome)
    requires status != ESP_OK
    ensures first == Done && second == Hung
  {
    var flag := new Flag();
    var a := new Device(flag, 1, None);
    var b := new Device(flag, 2, None);
    first := a.TransColor(Int(0x2C), Buffer([0x12, 0x34], false), status, a, 0);
    second := b.TransColor(Int(0x2C), Buffer([0x56, 0x78], false), ESP_OK, b, polls);
  }
}

=== FILE: rgbframebuffer.dfy ===
/**
 * src/rgbframebuffer.c (and its duplicate src/rgbframebuffer/esp32/rgbframebuffer.c):
 * an RGB panel driven from one 16-bit (RGB565) frame buffer. The constructor packs the
 * blue, green and red data pins into the panel configuration, creates, resets and
 * initialises the panel and takes its frame buffer; the object then exposes that buffer
 * through the buffer protocol, its size through the width and height attributes, and
 * `refresh` draws a buffer onto the panel.
 */
module RgbFrameBuffer {
  import opened MicroPython
  import opened EspLcd

  /** Entries of data_gpio_nums in esp_lcd_rgb_panel_config_t (the panel's data width). */
  const DataPinSlots: nat := 16

  /** The C conversion of an int to uint16_t: reduction modulo 2^16. */
  function Uint16(x: int): (r: int)
    ensures 0 <= r < 0x1_0000
    ensures (x - r) % 0x1_0000 == 0
    ensures 0 <= x < 0x1_0000 ==> r == x
  {
    x % 0x1_0000
  }

  /** The pins of one colour group: a tuple or list of ints (mp_obj_get_array, then mp_obj_get_int each). */
  function GroupPins(group: Obj): (r: Result<seq<int>>)
    ensures r.Ok? <==> (group.Tuple? || group.List?) && forall i :: 0 <= i < |group.items| ==> GetInt(group.items[i]).Ok?
    ensures r.Err? ==> r.error == TypeError
    ensures r.Ok? ==> |r.value| == |group.items| && forall i :: 0 <= i < |group.items| ==> r.value[i] == GetInt(group.items[i]).value
  {
    var items := GetArray(group);
    if items.Err? then Err(items.error)
    else if exists i :: 0 <= i < |items.value| && GetInt(items.value[i]).Err? then Err(TypeError)
    else Ok(seq(|items.value|, i requires 0 <= i < |items.value| => GetInt(items.value[i]).value))
  }

  /** Number of pins a group would contribute (0 for an object that is not a tuple or list). */
  function GroupLen(group: Obj): nat {
    if group.Tuple? || group.List? then |group.items| else 0
  }

  /**
   * data_gpio_nums after the three loops: blue, then green, then red, in tuple order from
   * slot 0; the slots after them keep the configuration's zero initialisation.
   */
  function DataPins(blue: Obj, green: Obj, red: Obj): (r: Result<seq<int>>)
    requires GroupLen(blue) + GroupLen(green) + GroupLen(red) <= DataPinSlots
    ensures r.Ok? <==> GroupPins(blue).Ok? && GroupPins(green).Ok? && GroupPins(red).Ok?
    ensures r.Err? ==> r.error == TypeError
    ensures r.Ok? ==> |r.value| == DataPinSlots
    ensures r.Ok? ==>
      var pins := GroupPins(blue).value + GroupPins(green).value + GroupPins(red).value;
      r.value[..|pins|] == pins && forall i :: |pins| <= i < DataPinSlots ==> r.value[i] == 0
  {
    var b := GroupPins(blue);
    var g := GroupPins(green);
    var rd := GroupPins(red);
    if b.Err? then Err(b.error)
    else if g.Err? then Err(g.error)
    else if rd.Err? then Err(rd.error)
    else
      var pins := b.value + g.value + rd.value;
      Ok(pins + seq(DataPinSlots - |pins|, _ => 0))
  }

  /** Slot k of data_gpio_nums, group by group. */
  lemma DataPinsAt(blue: Obj, green: Obj, red: Obj, k: nat)
    requires GroupLen(blue) + GroupLen(green) + GroupLen(red) <= DataPinSlots
    requires DataPins(blue, green, red).Ok? && k < DataPinSlots
    ensures var b, g, rd := GroupPins(blue).value, GroupPins(green).value, GroupPins(red).value;
      DataPins(blue, green, red).value[k] ==
        if k < |b| then b[k]
        else if k < |b| + |g| then g[k - |b|]
        else if k < |b| + |g| + |rd| then rd[k - |b| - |g|]
        else 0
  {
    var b, g, rd := GroupPins(blue).value, GroupPins(green).value, GroupPins(red).value;
    var pins := b + g + rd;
    var v := DataPins(blue, green, red).value;
    if k < |pins| {
      assert v[k] == v[..|pins|][k] == pins[k];
    }
  }

  /**
   * One of the three loops: converts the group's pins into consecutive slots from `start`
   * and returns the next free slot (pin_idx after the loop).
   */
  method PackGroup(nums: array<int>, start: nat, group: Obj) returns (r: Result<nat>)
    requires start + GroupLen(group) <= nums.Length
    modifies nums
    ensures GroupPins(group).Err? ==> r.Err? && r.error == TypeError
    ensures GroupPins(group).Ok? ==> r == Ok(start + |group.items|)
    ensures GroupPins(group).Ok? ==> forall k :: 0 <= k < |group.items| ==> nums[start + k] == GroupPins(group).value[k]
    ensures forall k :: 0 <= k < start ==> nums[k] == old(nums[k])
    ensures GroupPins(group).Ok? ==> forall k :: start + |group.items| <= k < nums.Length ==> nums[k] == old(nums[k])
  {
    var items := GetArray(group);
    if items.Err? {
      return Err(items.error);
    }
    var pinIdx := start;
    for i := 0 to |items.value|
      invariant pinIdx == start + i
      invariant forall k :: 0 <= k < start ==> nums[k] == old(nums[k])
      invariant forall k :: 0 <= k < i ==> GetInt(items.value[k]).Ok? && nums[start + k] == GetInt(items.value[k]).value
      invariant forall k :: start + |items.value| <= k < nums.Length ==> nums[k] == old(nums[k])
    {
      var pin := GetInt(items.value[i]);
      if pin.Err? {
        return Err(pin.error);
      }
      nums[pinIdx] := pin.value;
      pinIdx := pinIdx + 1;
    }
    r := Ok(pinIdx);
  }

  /**
   * The pin extraction of rgbframebuffer_make_new: a zeroed configuration array filled
   * through a running pin_idx, blue first. There is no check that the groups fit the
   * array; the requires states that they must.
   */
  method PackDataPins(blue: Obj, green: Obj, red: Obj) returns (r: Result<seq<int>>)
    requires GroupLen(blue) + GroupLen(green) + GroupLen(red) <= DataPinSlots
    ensures r == DataPins(blue, green, red)
  {
    var nums := new int[DataPinSlots](_ => 0);
    var pinIdx := 0;
    var next := PackGroup(nums, pinIdx, blue);
    if next.Err? {
      return Err(next.error);
    }
    ghost var b := GroupPins(blue).value;
    pinIdx := next.value;
    next := PackGroup(nums, pinIdx, green);
    if next.Err? {
      return Err(next.error);
    }
    ghost var g := GroupPins(green).value;
    pinIdx := next.value;
    next := PackGroup(nums, pinIdx, red);
    if next.Err? {
      return Err(next.error);
    }
    ghost var rd := GroupPins(red).value;
    ghost var want := DataPins(blue, green, red).value;
    forall k | 0 <= k < DataPinSlots
      ensures nums[k] == want[k]
    {
      DataPinsAt(blue, green, red, k);
    }
    r := Ok(nums[..]);
    assert nums[..] == want;
  }

  /** The constructor's arguments, after parsing (all of them are required). */
  datatype Args = Args(
    de: int, vsync: int, hsync: int, dclk: int, red: Obj, green: Obj, blue: Obj,
    frequency: int, width: int, height: int,
    hsyncPulseWidth: int, hsyncFrontPorch: int, hsyncBackPorch: int,
    vsyncPulseWidth: int, vsyncFrontPorch: int, vsyncBackPorch: int,
    hsyncIdleLow: bool, vsyncIdleLow: bool, deIdleHigh: bool,
    pclkActiveHigh: bool, pclkIdleHigh: bool)

  /** The timings block: the geometry and porches as given, the pixel-clock edge inverted. */
  function Timings(a: Args): (t: RgbTimings)
    ensures t.pclkHz == a.frequency && t.hRes == a.width && t.vRes == a.height
    ensures t.pclkActiveNeg == !a.pclkActiveHigh
    ensures t.hsyncIdleLow == a.hsyncIdleLow && t.vsyncIdleLow == a.vsyncIdleLow
    ensures t.deIdleHigh == a.deIdleHigh && t.pclkIdleHigh == a.pclkIdleHigh
    ensures t.hsyncPulseWidth == a.hsyncPulseWidth && t.hsyncFrontPorch == a.hsyncFrontPorch
    ensures t.hsyncBackPorch == a.hsyncBackPorch && t.vsyncPulseWidth == a.vsyncPulseWidth
    ensures t.vsyncFrontPorch == a.vsyncFrontPorch && t.vsyncBackPorch == a.vsyncBackPorch
  {
    RgbTimings(a.frequency, a.width, a.height,
               a.hsyncPulseWidth, a.hsyncFrontPorch, a.hsyncBackPorch,
               a.vsyncPulseWidth, a.vsyncFrontPorch, a.vsyncBackPorch,
               a.hsyncIdleLow, a.vsyncIdleLow, a.deIdleHigh, !a.pclkActiveHigh, a.pclkIdleHigh)
  }

  /** esp_lcd_rgb_panel_config_t: 16-bit RGB565, one frame buffer, 64-byte alignment, no DISP pin. */
  function PanelConfig(a: Args, pins: seq<int>): (c: RgbPanelConfig)
    ensures c.timings == Timings(a) && c.dataGpioNums == pins
    ensures c.clkSrc == ClkSrcDefault && c.dataWidth == 16 && c.bitsPerPixel == 16 && c.numFbs == 1
    ensures c.sramTransAlign == 64 && c.psramTransAlign == 64 && c.disp == -1
    ensures c.hsync == a.hsync && c.vsync == a.vsync && c.de == a.de && c.pclk == a.dclk
  {
    RgbPanelConfig(ClkSrcDefault, Timings(a), 16, 16, 1, 64, 64, a.hsync, a.vsync, a.de, a.dclk, -1, pins)
  }

  /** rgbframebuffer_obj_t: the panel, its size as uint16_t, and the frame buffer's bytes. */
  datatype FrameBuffer = FrameBuffer(panelHandle: nat, width: int, height: int, buffer: seq<bv8>)

  /**
   * rgbframebuffer_make_new: the driver's statuses for creating, resetting and
   * initialising the panel and for fetching its single frame buffer are inputs, as are the
   * panel handle and the frame buffer's bytes. Every driver call is under ESP_ERROR_CHECK.
   */
  method MakeNew(a: Args, newStatus: int, panelHandle: nat, resetStatus: int, initStatus: int,
                 fbStatus: int, frame: seq<bv8>)
    returns (r: Result<FrameBuffer>, vendor: seq<VendorCall>)
    requires GroupLen(a.blue) + GroupLen(a.green) + GroupLen(a.red) <= DataPinSlots
    ensures DataPins(a.blue, a.green, a.red).Err? ==> r == Err(TypeError) && vendor == []
    ensures DataPins(a.blue, a.green, a.red).Ok? ==>
      vendor <= [NewRgbPanel(PanelConfig(a, DataPins(a.blue, a.green, a.red).value)),
                 PanelReset, PanelInit, GetFrameBuffer(1)]
      && |vendor| == (if newStatus != ESP_OK then 1 else if resetStatus != ESP_OK then 2
                      else if initStatus != ESP_OK then 3 else 4)
    ensures r.Ok? <==>
      DataPins(a.blue, a.green, a.red).Ok? && newStatus == ESP_OK && resetStatus == ESP_OK
      && initStatus == ESP_OK && fbStatus == ESP_OK
    ensures r.Err? && DataPins(a.blue, a.green, a.red).Ok? ==> r.error == Abort
    ensures r.Ok? ==> r.value == FrameBuffer(panelHandle, Uint16(a.width), Uint16(a.height), frame)
  {
    var width := Uint16(a.width);
    var height := Uint16(a.height);
    var pins := PackDataPins(a.blue, a.green, a.red);
    if pins.Err? {
      return Err(pins.error), [];
    }
    vendor := [NewRgbPanel(PanelConfig(a, pins.value))];
    if newStatus != ESP_OK {
      return Err(Abort), vendor;
    }
    vendor := vendor + [PanelReset];
    if resetStatus != ESP_OK {
      return Err(Abort), vendor;
    }
    vendor := vendor + [PanelInit];
    if initStatus != ESP_OK {
      return Err(Abort), vendor;
    }
    vendor := vendor + [GetFrameBuffer(1)];
    if fbStatus != ESP_OK {
      return Err(Abort), vendor;
    }
    r := Ok(FrameBuffer(panelHandle, width, height, frame));
  }

  /**
   * The attributes rgbframebuffer_attr answers. Every other name is reported as not found,
   * because the type's locals dictionary is never consulted by this handler.
   */
  datatype AttrName = Width | Height | OtherAttr(name: string)

  /**
   * rgbframebuffer_attr on a load: width and height as small ints, MP_OBJ_NULL (not found
   * here) for any other name. Stores and deletes are not answered.
   */
  function LoadAttr(fb: FrameBuffer, attr: AttrName): (dest: Obj)
    ensures attr == Width ==> dest == Int(fb.width)
    ensures attr == Height ==> dest == Int(fb.height)
    ensures attr.OtherAttr? ==> dest == Null
  {
    match attr
    case Width => Int(fb.width)
    case Height => Int(fb.height)
    case OtherAttr(_) => Null
  }

  /** The attributes echo the constructor's width and height, reduced to uint16_t. */
  lemma AttributesEchoConstruction(a: Args, panelHandle: nat, frame: seq<bv8>)
    ensures LoadAttr(FrameBuffer(panelHandle, Uint16(a.width), Uint16(a.height), frame), Width) == Int(Uint16(a.width))
    ensures LoadAttr(FrameBuffer(panelHandle, Uint16(a.width), Uint16(a.height), frame), Height) == Int(Uint16(a.height))
    ensures 0 <= a.width < 0x1_0000 ==>
      LoadAttr(FrameBuffer(panelHandle, Uint16(a.width), Uint16(a.height), frame), Width) == Int(a.width)
  {
  }

  /** mp_buffer_info_t as the buffer protocol hands it out. */
  datatype BufferInfo = BufferInfo(bytes: seq<bv8>, typecode: char)

  /** rgbframebuffer_get_buffer: the frame buffer's bytes, typed as unsigned 16-bit ('H'); it never fails. */
  function ExportBuffer(fb: FrameBuffer): (r: (int, BufferInfo))
    ensures r.0 == 0
    ensures r.1.bytes == fb.buffer && r.1.typecode == 'H'
  {
    (0, BufferInfo(fb.buffer, 'H'))
  }

  /** Number of pixels a draw_bitmap call covers (x_end and y_end are exclusive). */
  function DrawnPixels(call: VendorCall): int
    requires call.DrawBitmap?
  {
    (call.xEnd - call.xStart) * (call.yEnd - call.yStart)
  }

  /**
   * rgbframebuffer_refresh as written: the argument must export a writable buffer; its
   * bytes are drawn from (0, 0) to (width + 1, height + 1).
   */
  function Refresh(fb: FrameBuffer, buffer: Obj): (r: Result<VendorCall>)
    ensures r.Ok? <==> GetBuffer(buffer, true).Ok?
    ensures r.Err? ==> r.error == TypeError
    ensures r.Ok? ==> r.value == DrawBitmap(0, 0, fb.width + 1, fb.height + 1, buffer.bytes)
  {
    var buf := GetBuffer(buffer, true);
    if buf.Err? then Err(buf.error)
    else Ok(DrawBitmap(0, 0, fb.width + 1, fb.height + 1, buf.value))
  }

  /** rgbframebuffer_refresh as evidently intended: the draw covers exactly the width x height panel. */
  function RefreshPanel(fb: FrameBuffer, buffer: Obj): (r: Result<VendorCall>)
    ensures r.Ok? <==> GetBuffer(buffer, true).Ok?
    ensures r.Err? ==> r.error == TypeError
    ensures r.Ok? ==> r.value == DrawBitmap(0, 0, fb.width, fb.height, buffer.bytes)
  {
    var buf := GetBuffer(buffer, true);
    if buf.Err? then Err(buf.error)
    else Ok(DrawBitmap(0, 0, fb.width, fb.height, buf.value))
  }

  /**
   * As written, refresh with the object's own RGB565 frame buffer (two bytes per pixel of
   * the width x height panel) asks the driver for width + height + 1 pixels more than the
   * buffer holds.
   */
  lemma RefreshOverrunsFrameBuffer(fb: FrameBuffer)
    requires |fb.buffer| == 2 * fb.width * fb.height && 0 <= fb.width && 0 <= fb.height
    ensures Refresh(fb, Buffer(fb.buffer, true)).Ok?
    ensures 2 * DrawnPixels(Refresh(fb, Buffer(fb.buffer, true)).value) == |fb.buffer| + 2 * (fb.width + fb.height + 1)
  {
    var call := Refresh(fb, Buffer(fb.buffer, true)).value;
    calc {
      2 * DrawnPixels(call);
      2 * ((fb.width + 1) * (fb.height + 1));
      2 * (fb.width * fb.height) + 2 * (fb.width + fb.height + 1);
    }
  }

  /** A 720 x 720 panel, the size of the module's usage example: 1441 pixels past its frame buffer. */
  lemma RefreshOverrunExample()
    ensures var fb := FrameBuffer(1, 720, 720, seq(2 * 720 * 720, _ => 0));
            DrawnPixels(Refresh(fb, Buffer(fb.buffer, true)).value) == 720 * 720 + 1441
  {
  }

  /** With the exact draw, the frame buffer covers the drawn area exactly. */
  lemma RefreshPanelCoversFrameBuffer(fb: FrameBuffer)
    requires |fb.buffer| == 2 * fb.width * fb.height && 0 <= fb.width && 0 <= fb.height
    ensures RefreshPanel(fb, Buffer(fb.buffer, true)).Ok?
    ensures 2 * DrawnPixels(RefreshPanel(fb, Buffer(fb.buffer, true)).value) == |fb.buffer|
  {
  }
}

=== FILE: spi_mode.dfy ===
/**
 * The spi_mode expression shared by both SPI bus constructors (src/spibus.c and
 * src/busdrivers/spibus.c): the low bit of `polarity` in bit 0 and the low bit of `phase`
 * in bit 1.
 *
 * The driver numbers SPI modes the conventional way, mode = (CPOL << 1) | CPHA, so bit 1
 * is the clock polarity and bit 0 the clock phase: the expression puts each argument in
 * the other's bit.
 */
module SpiModeBits {

  /** `x & 1` for a C int: the two's-complement low bit, which Euclidean `% 2` gives also for negatives. */
  function LowBit(x: int): (b: int)
    ensures b == 0 || b == 1
    ensures (x - b) % 2 == 0
  {
    x % 2
  }

  /** (polarity & 1) | ((phase & 1) << 1), as written. */
  function SpiMode(polarity: int, phase: int): (mode: int)
    ensures 0 <= mode <= 3
    ensures mode % 2 == LowBit(polarity) && mode / 2 == LowBit(phase)
  {
    LowBit(polarity) + 2 * LowBit(phase)
  }

  /** The clock polarity (CPOL) the driver reads from a mode number. */
  function Cpol(mode: int): int
    requires 0 <= mode <= 3
  {
    mode / 2
  }

  /** The clock phase (CPHA) the driver reads from a mode number. */
  function Cpha(mode: int): int
    requires 0 <= mode <= 3
  {
    mode % 2
  }

  /** Only the low bit of each argument matters: adding any even amount changes nothing. */
  lemma {:induction false} SpiModeLowBitsOnly(polarity: int, phase: int, k: int, j: int)
    ensures SpiMode(polarity + 2 * k, phase + 2 * j) == SpiMode(polarity, phase)
  {
    assert (polarity + 2 * k) % 2 == polarity % 2;
    assert (phase + 2 * j) % 2 == phase % 2;
  }

  /** The four modes are distinct: polarity and phase can be read back from the mode. */
  lemma SpiModeInjective(pol1: int, ph1: int, pol2: int, ph2: int)
    requires SpiMode(pol1, ph1) == SpiMode(pol2, ph2)
    ensures LowBit(pol1) == LowBit(pol2) && LowBit(ph1) == LowBit(ph2)
  {
  }

  /**
   * As written, the driver sees the phase argument as the clock polarity and the polarity
   * argument as the clock phase.
   */
  lemma SpiModeSwapsCpolAndCpha(polarity: int, phase: int)
    ensures Cpol(SpiMode(polarity, phase)) == LowBit(phase)
    ensures Cpha(SpiMode(polarity, phase)) == LowBit(polarity)
  {
  }

  /** polarity=1, phase=0 asks for CPOL 1, CPHA 0 and gets mode 1, which is CPOL 0, CPHA 1. */
  lemma SpiModeCounterexample()
    ensures SpiMode(1, 0) == 1 && Cpol(1) == 0 && Cpha(1) == 1
  {
  }

  /** The conventional encoding: polarity to CPOL (bit 1), phase to CPHA (bit 0). */
  function StandardSpiMode(polarity: int, phase: int): (mode: int)
    ensures 0 <= mode <= 3
    ensures Cpol(mode) == LowBit(polarity) && Cpha(mode) == LowBit(phase)
  {
    2 * LowBit(polarity) + LowBit(phase)
  }

  /** The two encodings agree exactly when the low bits of polarity and phase are equal (modes 0 and 3). */
  lemma {:induction false} EncodingsAgreeIffSymmetric(polarity: int, phase: int)
    ensures SpiMode(polarity, phase) == StandardSpiMode(polarity, phase) <==> LowBit(polarity) == LowBit(phase)
  {
  }
}

=== FILE: spibus.dfy ===
/**
 * src/spibus.c: the SPI bus constructor of the fire-and-forget revision. It initialises
 * the SPI host, creates an SPI panel IO whose completion handler is color_trans_done with
 * the bus as context, and returns the spi variant of the bus union. Both driver calls are
 * wrapped in ESP_ERROR_CHECK, so a failure aborts the firmware.
 */
module SpiBus {
  import opened MicroPython
  import opened EspLcd
  import opened SpiModeBits
  import opened ColorTransFlag
  import BusUnion

  /** The constructor's keyword arguments, after parsing. */
  datatype Args = Args(
    id: int, baudrate: int, polarity: int, phase: int, bits: int, lsbFirst: bool,
    sck: int, mosi: int, miso: int, dc: int, cs: int)

  /** The keyword defaults. */
  const DefaultArgs: Args := Args(2, 24000000, 0, 0, 8, false, -1, -1, -1, -1, -1)

  /**
   * spi_bus_config_t: the three pins given, no quad pins, the driver's default transfer
   * size. The blocking revision (src/busdrivers/spibus.c) builds the same record.
   */
  function BusConfig(sck: int, mosi: int, miso: int): (c: SpiBusConfig)
    ensures c.sclk == sck && c.mosi == mosi && c.miso == miso
    ensures c.quadwp == -1 && c.quadhd == -1 && c.maxTransferSz == 0
  {
    SpiBusConfig(sck, mosi, miso, -1, -1, 0)
  }

  /**
   * esp_lcd_panel_io_spi_config_t: the one `bits` argument sizes both commands and
   * parameters, the mode comes from the low bits of polarity and phase, ten transfers may
   * be queued; completions go to color_trans_done with the new bus object as context.
   */
  function IoConfig(a: Args): (c: SpiIoConfig)
    ensures c.cmdBits == a.bits && c.paramBits == a.bits
    ensures c.spiMode == SpiMode(a.polarity, a.phase) && 0 <= c.spiMode <= 3
    ensures c.queueDepth == 10
    ensures c.dc == a.dc && c.cs == a.cs && c.pclkHz == a.baudrate
    ensures c.lsbFirst == a.lsbFirst && !c.dcLowOnData && !c.octalMode
    ensures c.onColorTransDone == ColorTransDoneHandler && c.userCtx == SelfCtx
  {
    SpiIoConfig(a.dc, a.cs, a.baudrate, SpiMode(a.polarity, a.phase), a.bits, a.bits, 10,
                a.lsbFirst, false, false, ColorTransDoneHandler, SelfCtx)
  }

  /** With no keywords: host 2, mode 0 at 24 MHz, 8-bit commands and parameters. */
  lemma DefaultConfiguration()
    ensures DefaultArgs.id == 2
    ensures IoConfig(DefaultArgs).pclkHz == 24000000 && IoConfig(DefaultArgs).spiMode == 0
    ensures IoConfig(DefaultArgs).cmdBits == 8 && IoConfig(DefaultArgs).paramBits == 8
  {
  }

  /**
   * spibus_make_new: initialise host `id`, then create its panel IO; `initStatus` and
   * `ioStatus` are what the driver returns, `ioHandle` the handle it hands back. The
   * callback slot is never written and stays MP_OBJ_NULL.
   */
  method MakeNew(a: Args, initStatus: int, ioStatus: int, ioHandle: nat)
    returns (r: Result<BusUnion.SpiBusObj>, vendor: seq<VendorCall>)
    ensures initStatus != ESP_OK ==> r == Err(Abort) && vendor == [SpiBusInitialize(a.id, BusConfig(a.sck, a.mosi, a.miso))]
    ensures initStatus == ESP_OK ==>
      vendor == [SpiBusInitialize(a.id, BusConfig(a.sck, a.mosi, a.miso)), NewPanelIoSpi(a.id, IoConfig(a))]
    ensures initStatus == ESP_OK ==>
      vendor[1].spi.onColorTransDone == ColorTransDoneHandler && vendor[1].spi.userCtx == SelfCtx
    ensures initStatus == ESP_OK && ioStatus != ESP_OK ==> r == Err(Abort)
    ensures initStatus == ESP_OK && ioStatus == ESP_OK ==> r == Ok(BusUnion.SpiBusObj(ioHandle, Null, a.id))
  {
    var spiHost := a.id;
    vendor := [SpiBusInitialize(spiHost, BusConfig(a.sck, a.mosi, a.miso))];
    if initStatus != ESP_OK {
      return Err(Abort), vendor;
    }
    var ioConfig := IoConfig(a);
    vendor := vendor + [NewPanelIoSpi(spiHost, ioConfig)];
    if ioStatus != ESP_OK {
      return Err(Abort), vendor;
    }
    r := Ok(BusUnion.SpiBusObj(ioHandle, Null, spiHost));
  }

  /**
   * One send_color on an SPI bus object `o` that no transfer has used yet, followed by the
   * completion interrupt, as written (`guarded` false) or guarded by mp_obj_is_callable
   * (`guarded` true): the objects the completion calls.
   */
  method ColorCycle(o: BusUnion.SpiBusObj, guarded: bool) returns (called: seq<Obj>)
    ensures !guarded ==> called == (if o.callback != None then [o.callback] else [])
    ensures guarded ==> called == (if IsCallable(o.callback) then [o.callback] else [])
  {
    var flag := new Flag();
    var bus := new BusUnion.BusObject(flag, BusUnion.Spi(o));
    var _ := bus.SendColor(Int(0x2C), Buffer([0x12, 0x34], false), ESP_OK, bus, 0);
    if guarded {
      var _ := bus.ColorTransDoneGuarded();
    } else {
      var _ := bus.ColorTransDone();
    }
    called := bus.invoked;
  }

  /**
   * The completion callback of src/bus.c on a new SPI bus, built from any arguments, that
   * never had a callback registered: the interrupt calls the MP_OBJ_NULL slot, which is
   * not callable.
   */
  method UnregisteredCallbackIsCalled(a: Args, ioHandle: nat) returns (called: seq<Obj>)
    ensures called == [Null] && !IsCallable(called[0])
  {
    var made, _ := MakeNew(a, ESP_OK, ESP_OK, ioHandle);
    called := ColorCycle(made.value, false);
  }

  /** The same sequence with the guarded completion: nothing is called. */
  method UnregisteredCallbackIsSkipped(a: Args, ioHandle: nat) returns (called: seq<Obj>)
    ensures called == []
  {
    var made, _ := MakeNew(a, ESP_OK, ESP_OK, ioHandle);
    called := ColorCycle(made.value, true);
  }
}
